=== FILE: README.md ===
# fadecandy-rest OPC client: a Dafny model

This project models three things:

- the Open Pixel Control (OPC) client of fadecandy-rest. That covers the
  `PixelBuffer` frame encoder and the `OPC` connection and render state.
- the colour controller of the REST API.
- the pattern controller of the REST API.

An OPC "set pixel colours" frame has four parts, in order:

1. channel byte 0
2. command byte 0
3. a big-endian 16-bit payload length
4. one red, green, blue byte triple per pixel

The client keeps:

- one socket to the OPC server
- a promise for the connection in progress
- the pattern interval currently running
- the last PixelBuffer sent
- the last colour filled

The code relies on JavaScript callbacks. These become explicit steps on an
immutable `Client` record:

- a transition timer firing
- the socket connecting, erroring or closing
- a reconnect timer firing
- a pattern interval ticking

Promises become an array of settled flags. The sends waiting on a pending
promise are a list. The frames handed to `socket.write` are a log.

Files:

- `js.dfy`: `Option`, `Result`, JavaScript truthiness, and `x | 0` on integers.
- `pixel_buffer.dfy`: the frame encoder. Its property lemmas include the
  independent reference `SolidFrame`.
- `opc_client.dfy`: the client record, every method and callback as a step,
  the `Step` dispatcher and the `Valid` invariant every step keeps.
- `opc_properties.dfy`: multi-step properties. These are start-up, a fill
  taking effect, the close/reconnect cycle, and the pattern-overlap finding
  with its repair.
- `http.dfy`: replies, and how a thrown client error becomes a reply.
- `colors_controller.dfy`, `patterns_controller.dfy`: the two controllers.

The client behaves in ways that are easy to miss. Some follow from the
code alone, others from the Node and lodash behaviour it relies on:

- `isConnected()` is true as soon as `connect()` has created a socket,
  before TCP connects.
- A fill speed of 0 means the default. So the start colour filled on the
  first connection appears only after the default delay.
- `fillColor` clears the current pattern at once. The colour is recorded
  only when its timer fires, and only if the send in that timer does not
  throw.
- `transition` re-sends the current pixels raw. With no connect promise
  (between a close and the reconnect timer) this throws the 503 error
  before any timer is set.
- A pattern's frames are sent raw, so they never become `currentPixels`.
- A frame whose send callback finds no socket is dropped. The catch block
  calls `this.connect()` on the callback's receiver, which is not the
  client.
- `set(-1, …)` passes Node's bounds checks and overwrites header bytes 1
  to 3.
- The singleton factory's `throw new "…"` throws a TypeError, because
  `new` is applied to a string. Either way, a second host or port is refused.

## Model

| member | source | states |
|---|---|---|
| Js.ToInt32 | lib/opc.js:63-65 | `v \| 0` on an integer gives the int32 congruent to v modulo 2^32, and leaves int32 values unchanged |
| PixelBuffers.Clamp | lib/opc.js:63-65 | a channel is stored as its int32 conversion clamped into [0, 255]; in-range values are kept |
| PixelBuffers.New | lib/opc.js:23-31 | a new buffer has 4 + 3n bytes, channel and command 0, and declared length 3n; it fails for negative n and when 3n exceeds 65535 |
| PixelBuffers.Set | lib/opc.js:59-68 | set writes the clamped triple at offsets 4+3i..4+3i+2 and nothing else; it succeeds exactly when those offsets exist; for a pixel index it keeps the header and the other pixels |
| PixelBuffers.Fill | lib/opc.js:43-49 | fill sets every pixel below num to the clamped triple and keeps the header and the pixels from num on; it fails exactly when num exceeds the pixel count |
| PixelBuffers.SamePixelsSameBuffer | lib/opc.js:23-31 | a buffer is determined by its header and its pixels |
| PixelBuffers.FillNewIsSolidFrame | lib/opc.js:23-49 | a new buffer filled over all its pixels equals the independently written frame: header, then the clamped triple n times |
| PixelBuffers.FillIdempotent | lib/opc.js:43-49 | filling twice with one colour equals filling once |
| PixelBuffers.SetBeforeFirstPixelOverwritesHeader | lib/opc.js:59-66 | set(-1, r, g, b) succeeds and writes the clamped channels over bytes 1 to 3, breaking the header when red is not 0 |
| PixelBuffers.FourPixelFrame | lib/opc.js:23-67 | four pixels filled with (10, 20, 30) give 0,0,0,12 then 10,20,30 four times |
| PixelBuffers.ClampExample | lib/opc.js:63-65 | the channels (-10, 300, 128) are stored as (0, 255, 128) |
| PixelBuffers.WriteUInt8 | lib/opc.js:63-65 | the write succeeds exactly when the offset lies inside the buffer, stores the value there and keeps every other byte; otherwise it is a RangeError |
| Opc.DefaultSettings | lib/opc.js:92-104 | with the configuration keys absent, reconnects wait 5000 ms, the start colour is black and the default fill speed is 500 ms |
| Opc.NewClient | lib/opc.js:88-107 | a new client has no socket, no connect promise, no pattern, pixels or colour, and is valid |
| Opc.IsConnected | lib/opc.js:112-114 | isConnected() is true exactly when the client holds a socket object, whatever its connection state; how each step changes it is in OpcProperties.ConnectedChangesOnlyBySocketEvents |
| Opc.IsConnecting | lib/opc.js:119-121 | isConnecting() is true exactly when there is a connect promise and it is still pending; how each step changes it is in OpcProperties.ConnectingChangesOnlyByConnectEvents |
| Opc.Write | lib/opc.js:205-214 | a send callback that finds a socket appends its frame to the wire; one that finds none drops the frame and changes nothing, because the catch block's connect call does not reach the client |
| Opc.Resolve | lib/opc.js:203-215 | resolving a pending promise runs exactly the sends waiting on it, in registration order, writing them if a socket exists; resolving a settled one changes nothing |
| Opc.SendRaw | lib/opc.js:198-220 | a raw send throws 503 exactly when there is no connect promise, and then changes nothing; it waits on a pending promise and writes at once on a settled one |
| Opc.Send | lib/opc.js:198-202 | sending a PixelBuffer records it as the current pixels, even when the send then throws; its bytes are queued on a pending promise and written on a settled one when a socket exists; nothing else changes |
| Opc.ConnectWith | lib/opc.js:131-184 | while a connect is pending, connect returns the same promise and changes nothing; otherwise the given or a fresh deferred becomes the promise, resolved at once if a socket exists (flushing the sends waiting on it), else a new socket is created; nothing else changes |
| Opc.Connect | lib/opc.js:131-184 | connect() without a deferred shares a pending promise; otherwise it adds a fresh promise, settled when a socket exists and pending with a new opening socket when none does, and changes nothing else |
| Opc.TransitionDelay | lib/opc.js:243 | a fill speed of 0 or none means the default fill speed; any other speed is used as given |
| Opc.Transition | lib/opc.js:238-244 | the current pixels are re-sent first, queued or written like any send; the step throws 503 exactly when there are current pixels and no connect promise, and then keeps the timers as written; otherwise it adds the timer with its delay; nothing else changes |
| Opc.StopPattern | lib/opc.js:250-257 | afterwards there is no current pattern and its interval no longer runs; with no pattern it changes nothing, so it is idempotent |
| Opc.StartPattern | lib/opc.js:269-278 | the current pattern is stopped at once and its interval no longer runs; the current pixels are re-sent; as written the pattern's timer is appended after the pending ones, which stay; nothing else changes |
| Opc.FillColor | lib/opc.js:287-299 | the pattern is cleared and its interval stopped at once, the current pixels are re-sent, and neither the colour nor the current pixels change yet; as written the fill timer, carrying the solid frame and the colour, is appended after the pending ones; nothing else changes; an unbuildable buffer throws before anything changes |
| Opc.SolidBuffer | lib/opc.js:292 | the buffer fillColor builds is exactly the solid frame of the colour, a missing element counting as 0; it fails, with the error new PixelBuffer throws, exactly when the pixel count does not fit a frame |
| Opc.FireTransition | lib/opc.js:275-298 | a pattern timer starts a fresh interval and makes it current without stopping others, sending nothing; a fill timer sends its pixels like any send, records them, and records the colour exactly when the send did not throw; in both cases only the fields named change |
| Opc.SocketConnects | lib/opc.js:152-162 | the connect callback throws when the client has dropped its socket, with only the socket marked open; with nothing shown yet it schedules the start colour at the default fill speed and resolves the deferred, writing the sends waiting on it, or throws without resolving when the pixel count does not fit; otherwise it only resolves the deferred |
| Opc.StartFill | lib/opc.js:152-161 | the first connection's fill puts the solid start-colour frame in the last timer with the default fill speed, settles the deferred and writes the sends waiting on it in order; a pixel count that does not fit throws and changes nothing |
| Opc.SocketErrors | lib/opc.js:165-168 | an error marks that socket failed and drops the client's socket; the connect promise and everything else are kept |
| Opc.SocketCloses | lib/opc.js:171-179 | a close marks that socket closed, drops the socket and the connect promise and schedules one reconnect carrying the socket's deferred after the reconnect delay; nothing else changes |
| Opc.ReconnectFires | lib/opc.js:135-178 | a reconnect timer calls connect again, reusing the closed socket's deferred when it is still pending; unless a connect is pending the client has a socket afterwards, a new one that is still opening when it had none, and with a socket the sends waiting on the promise are flushed; while a connect is pending only the timer itself is gone; nothing else changes |
| Opc.Step | lib/opc.js:112-299 | every method call and callback keeps the client valid and its settings unchanged |
| Opc.Obtain | lib/opc.js:301-311 | the first call builds the single client; later calls return it, or fail without change when given a host or port |
| OpcProperties.ConnectedBeforeEstablished | lib/opc.js:112-151 | right after connect() the client reports connected while the connect is still pending |
| OpcProperties.StartColorWaitsForDefaultDelay | lib/opc.js:152-161 | the first connection schedules the start colour with the default delay, not 0, resolves the promise, and no colour is recorded yet |
| OpcProperties.FillTakesEffectWhenTimerFires | lib/opc.js:287-299 | on a live connection a fill's timer writes the solid frame of the colour and records the colour, with no current pattern |
| OpcProperties.FillTimerWrites | lib/opc.js:295-298 | on a settled connection with a socket, a fill timer appends its frame to the wire and records its colour, keeping the current pattern |
| OpcProperties.CloseThenReconnect | lib/opc.js:171-178 | after an open socket closes and its reconnect timer fires, the client holds a fresh socket that is still opening and carries the pending connect promise, with nothing waiting or written |
| OpcProperties.ReconnectDeliversQueuedFramesInOrder | lib/opc.js:171-217 | after a close, a send throws 503; after the reconnect timer, sends wait and reach the wire in submission order once the new socket connects |
| OpcProperties.FramesOnQueued | lib/opc.js:203-214 | registering send callbacks for frames fs on a promise adds exactly fs, in order, to the frames that promise releases |
| OpcProperties.QueuedFramesFlushInOrder | lib/opc.js:198-214 | any number of sends made while a connect is pending write nothing; when the promise resolves with a socket, all of them reach the wire in the order they were made, after those queued earlier, and none is left waiting |
| OpcProperties.ConnectedChangesOnlyBySocketEvents | lib/opc.js:112-173 | over every step, isConnected() becomes true only by connect or a reconnect timer with no connect pending, becomes false on a socket error or close, and is unchanged by every other step |
| OpcProperties.ConnectingChangesOnlyByConnectEvents | lib/opc.js:119-173 | over every step, connect leaves the client connecting exactly when it was already or had to create a socket; a close ends it; the connection of the socket that carries the connect promise settles it; sends, patterns, fills, transition timers, ticks and errors keep the connect promise and its state |
| OpcProperties.DefaultStartIsBlackAfterHalfASecond | lib/opc.js:92-161 | with default settings, the first connection schedules the solid black frame with a 500 ms delay, and a close schedules a reconnect after 5000 ms |
| OpcProperties.TwoStartsLeaveAnOrphanPattern | lib/opc.js:269-278 | two startPattern calls inside the transition delay leave the first pattern running where stopPattern cannot reach it |
| OpcProperties.BothStartsPending | lib/opc.js:269-278 | as written, a second startPattern before the first one's timer fires leaves both pattern timers pending, in call order, with no pattern current |
| OpcProperties.BothPatternTimersFire | lib/opc.js:275-277 | when both pattern timers fire, each installs its own interval and the second becomes current, so stopPattern leaves the first running |
| OpcProperties.CancelPendingStartsOnlyTheLatest | lib/opc.js:238-278 | with transitions that cancel the pending timer, only the later pattern runs |
| OpcProperties.NewClientHasOnePattern | lib/opc.js:96-99 | a new client runs no pattern and has no timer pending |
| OpcProperties.CancelPendingKeepsOnePattern | lib/opc.js:238-278 | with cancelling transitions every step keeps at most one interval running, the one currentPattern names |
| Http.ThrownReply | lib/errorHandler.js:8-14 | a thrown 503 error becomes a 503 reply with its message; any other thrown error is a 500 |
| Http.Completed | controllers/colors/controller.js:38-40 | a handler answers 204 exactly when the client call did not throw |
| ColorsController.Lookup | controllers/colors/controller.js:21-25 | a name is found exactly when some configured key equals it, and yields that key's colour |
| ColorsController.Activate | controllers/colors/controller.js:13-41 | a configured name fills its colour; an unknown name is 404; with no name an array body is filled and any other body is 400; no fill happens on 404 or 400 |
| ColorsController.FirstNameOf | controllers/colors/controller.js:50-57 | the reverse lookup yields the first key whose colour equals the given one, and nothing exactly when no key's does |
| ColorsController.NameOfConfiguredColor | controllers/colors/controller.js:50-57 | when configured colours are pairwise different, the reverse lookup of a key's colour gives back that key |
| ColorsController.Current | controllers/colors/controller.js:43-63 | the reply carries the current colour unchanged and the first matching key, or "custom" when none matches or there is no colour |
| ColorsController.NamedColorRoundTrip | controllers/colors/controller.js:16-62 | activating a configured name and letting the fill fire makes current report that name, unless an earlier key has the same colour |
| PatternsController.Activate | controllers/patterns/controller.js:13-30 | a registered name starts that pattern and is recorded unless startPattern throws; a missing or unregistered name is 404 and changes nothing |
| PatternsController.Current | controllers/patterns/controller.js:32-38 | current replies with the recorded name exactly when the client has a current pattern, and 404 otherwise |
| PatternsController.PatternReportedOnceStarted | controllers/patterns/controller.js:13-38 | after activating a pattern, current is 404 until its timer fires and reports the name afterwards |

## Findings

| source | as written | input that shows it | evidently intended | confidence | as-written member | corrected member |
|---|---|---|---|---|---|---|
| lib/opc.js:238-278 | `transition` adds a timer without cancelling one still pending. The pattern timer starts its pattern without stopping one already running. | `startPattern(p)`, then `startPattern(q)` within the fill speed, then both timers fire | Starting a new output stops the previous pattern, so at most one pattern interval runs. `startPattern` stops the current pattern for exactly this reason. | not executed; high | OpcProperties.TwoStartsLeaveAnOrphanPattern | OpcProperties.CancelPendingKeepsOnePattern |

The same overlap follows from `startPattern(p)` then `fillColor(c)` within
the fill speed. Whichever timer fires first, pattern p starts and keeps
drawing: the fill frame is written once and p's next tick draws over it.

The repair is `Schedule.CancelPending`. `Opc.Transition` then clears the
pending timer before scheduling its own. `Opc.Step` takes the schedule as a
parameter. The lemmas about the repair run every step with `CancelPending`.
The controllers keep `AsWritten`, because they model the code as it is.

## Left out

- Sockets, promises and timers are abstract. A socket is a phase, a promise is a settled flag, and a timer is a pending entry that the environment may fire in any order. The delays are recorded, not enforced.
- Opc.SendRaw: a send callback on a settled promise runs in the step that registers it. Bluebird runs `.then` callbacks later: on the microtask queue, or with `setImmediate` on the Node versions where bluebird uses it. In that window a socket 'error' event can set `socket` to null. The callback then finds no socket and the frame is dropped. The model writes the frame, so `written` can list a frame that Node dropped.
- Opc.SendRaw: a pattern creates one PixelBuffer and redraws it on every tick (lib/patterns.js:16-39), and a send waiting on a pending promise keeps a reference to that same buffer (lib/opc.js:198-214). So N frames queued while a connect is pending all reach the wire as the buffer's last-drawn contents. The model queues each tick's frame as a separate value, so a run of `PatternTick` events and `OpcProperties.QueuedFramesFlushInOrder` write N distinct snapshots.
- ColorsController.Lookup: `config.has('colors.' + name)` also finds names inherited by the configuration objects, such as `toString`, `constructor`, `get` and `has`. For such a name the code fills with a function value, whose missing elements become 0, so it shows black and replies 204. The model looks names up only among the configured keys and replies 404.
- PatternsController.Activate: lodash's `_.has(patterns, name)` reads a dotted name as a property path, and `encodeURIComponent` keeps the dot. So a name such as `strip_redblue.length` finds the pattern function's own `length`, and the handler starts `patterns[name]`, which is undefined, records the name and replies 204; the pattern timer then throws a TypeError when it calls it. The registry is a flat map here, so such a name is a 404 that changes nothing.
- Opc.Resolve: the callbacks waiting on a promise run in the step that resolves it, for the same reason. A socket error between the resolve and the callbacks would drop their frames, and the model does not show that.
- When `fillColor`, a timer or the connect callback throws, the model reports the throw. An uncaught exception in a timer would end the Node process; the model does not model that exit.
- Pattern drawing, in lib/patterns.js, uses floating point and the clock. A pattern is an opaque value, and a tick's frame is an event parameter.
- Channel values and colour elements are integers. Non-integer, NaN and non-numeric values, for which `| 0` is not the integer ToInt32, are not modelled.
- PixelBuffers.New: the payload starts as zeros. `new Buffer(n)` in the Node versions of the time returns uninitialised memory; every use in the client overwrites all pixels first.
- PixelBuffers.Fill: when `set` throws part-way, the JavaScript buffer keeps the writes made before the throw. The model returns only the error. The client always fills exactly its pixel count, so this never happens there.
- `createPixels` and `PixelBuffer.prototype.send` are not separate members. They are `PixelBuffers.New` and `Opc.SendRaw` of the buffer's bytes.
- `encodeURIComponent` on URL names is the identity.
- PixelBuffers.WriteUInt8: Node first coerces the offset with `offset >>> 0`, which reduces it modulo 2^32. The model does not. The two agree for every offset between -2^31 and 2^31, so `PixelBuffers.Set` is exact only for pixel indices whose offsets lie in that range. Node would also accept `set(2^32 - 1, …)` and write at offset 1, as for `set(-1, …)`. The client only passes indices below its pixel count.
- Configuration loading is left out: settings, the colour table and the pattern registry are parameters. That includes the misspelled `opc.reconnecTimer` check, which makes the reconnect delay 5000 unless that misspelled key exists, and dotted colour names that `config` would read as nested paths.
- Sockets' 'error' events on a socket that already failed or closed are not delivered, matching Node's event order.
- hapi's wrapping of a thrown error is reduced to its status code and message.

=== FILE: colors_controller.dfy ===
/**
 The colours controller (controllers/colors/controller.js). `activate`
 fills either a colour named in the configuration or a colour array sent
 as the request body. `current` reports the client's current colour and
 the first configured name whose value equals it.
 */
module ColorsController {
  import opened Js
  import opened PixelBuffers
  import opened Opc
  import opened Http
  import OpcProperties

  /** The `colors` configuration object: its keys in enumeration order, each
      with its colour array. An absent `colors` key is the empty table. */
  type ColorTable = seq<(string, Color)>

  /** The request body: a JSON array of numbers, or anything else. */
  datatype Body = ArrayBody(items: seq<int>) | OtherBody

  /** `request.params.color` (absent on PUT /color) and `request.payload`. */
  datatype Request = Request(color: Option<string>, payload: Body)

  /** `config.has('colors.' + name) ? config.get('colors.' + name) : ...`. */
  function Lookup(table: ColorTable, name: string): (r: Option<Color>)
    ensures r.None? <==> forall i :: 0 <= i < |table| ==> table[i].0 != name
    ensures r.Some? ==> exists i :: 0 <= i < |table| && table[i] == (name, r.value)
  {
    if table == [] then None
    else if table[0].0 == name then Some(table[0].1)
    else Lookup(table[1..], name)
  }

  function NotFoundMessage(name: string): string {
    "Color " + name + " not found."
  }

  const InvalidMessage: string := "Invalid color specified."

  /** `activate`. A name in the URL is looked up: a configured name fills its
      colour, an unknown one is a 404. With no name, an array body is the
      colour to fill, anything else is a 400. A fill answers 204, or the
      reply for what the client threw. */
  function Activate(table: ColorTable, req: Request, c: Client): (r: (Reply<()>, Client))
    requires Valid(c)
    ensures Valid(r.1)
    ensures TruthyString(req.color) && Lookup(table, req.color.value).Some? ==>
      var a := FillColor(c, Lookup(table, req.color.value).value, None, AsWritten);
      r == (Completed(a.outcome), a.client)
    ensures TruthyString(req.color) && Lookup(table, req.color.value).None? ==>
      r == (Fail(404, NotFoundMessage(req.color.value)), c)
    ensures !TruthyString(req.color) && req.payload.ArrayBody? ==>
      var a := FillColor(c, req.payload.items, None, AsWritten);
      r == (Completed(a.outcome), a.client)
    ensures !TruthyString(req.color) && req.payload.OtherBody? ==>
      r == (Fail(400, InvalidMessage), c)
    ensures r.0 == NoContent ==> r.1.currentPattern.None?
  {
    if TruthyString(req.color) then
      match Lookup(table, req.color.value)
      case None => (Fail(404, NotFoundMessage(req.color.value)), c)
      case Some(color) =>
        var a := FillColor(c, color, None, AsWritten);
        (Completed(a.outcome), a.client)
    else if req.payload.ArrayBody? then
      var a := FillColor(c, req.payload.items, None, AsWritten);
      (Completed(a.outcome), a.client)
    else (Fail(400, InvalidMessage), c)
  }

  /** The first key, in enumeration order, whose value equals `color`;
      `_.forOwn` stops at the first match. */
  function FirstNameOf(table: ColorTable, color: Color): (r: Option<string>)
    ensures r.None? <==> forall i :: 0 <= i < |table| ==> table[i].1 != color
    ensures r.Some? ==> exists i :: 0 <= i < |table| && table[i] == (r.value, color)
                                    && forall j :: 0 <= j < i ==> table[j].1 != color
  {
    if table == [] then None
    else if table[0].1 == color then Some(table[0].0)
    else
      var rest := FirstNameOf(table[1..], color);
      if rest.Some? then
        ghost var i :| 0 <= i < |table| - 1 && table[1..][i] == (rest.value, color)
                      && forall j :: 0 <= j < i ==> table[1..][j].1 != color;
        assert table[i + 1] == (rest.value, color);
        rest
      else rest
  }

  /** When no two keys share a colour, the reverse lookup of a key's colour
      gives back that key. */
  lemma NameOfConfiguredColor(table: ColorTable, name: string)
    requires forall i, j :: 0 <= i < j < |table| ==> table[i].1 != table[j].1
    requires Lookup(table, name).Some?
    ensures FirstNameOf(table, Lookup(table, name).value) == Some(name)
  {
    var color := Lookup(table, name).value;
    var i :| 0 <= i < |table| && table[i] == (name, color);
    var n := FirstNameOf(table, color);
    var i' :| 0 <= i' < |table| && table[i'] == (n.value, color)
              && forall j :: 0 <= j < i' ==> table[j].1 != color;
    assert i == i';
  }

  const CustomName: string := "custom"

  /** The body of `current`: a name and the client's colour as it is. */
  datatype CurrentColor = CurrentColor(name: string, value: Option<Color>)

  /** `current`: the first configured name whose colour deep-equals the
      client's current colour, or "custom"; the value is the current colour
      itself. No colour at all (null) matches no configured array. */
  function Current(table: ColorTable, c: Client): (r: Reply<CurrentColor>)
    ensures r.Json? && r.body.value == c.currentColor
    ensures (c.currentColor.None? || forall i :: 0 <= i < |table| ==> table[i].1 != c.currentColor.value)
            ==> r.body.name == CustomName
    ensures c.currentColor.Some? && (exists i :: 0 <= i < |table| && table[i].1 == c.currentColor.value) ==>
      exists i :: 0 <= i < |table| && table[i] == (r.body.name, c.currentColor.value)
                  && forall j :: 0 <= j < i ==> table[j].1 != c.currentColor.value
  {
    var name :=
      if c.currentColor.None? then CustomName
      else match FirstNameOf(table, c.currentColor.value)
           case None => CustomName
           case Some(n) => n;
    Json(CurrentColor(name, c.currentColor))
  }

  /** A named colour round-trips: activating a configured name, then
      letting the fill's timer fire on a live connection, makes `current`
      report that name, provided no earlier key has the same colour. */
  lemma NamedColorRoundTrip(table: ColorTable, name: string, c: Client)
    requires Valid(c)
    requires 0 <= c.settings.numPixels <= MaxPixels
    requires c.connecting.Some? && c.promises[c.connecting.value] && c.socket.Some?
    requires name != "" && Lookup(table, name).Some?
    requires FirstNameOf(table, Lookup(table, name).value) == Some(name)
    ensures var r := Activate(table, Request(Some(name), OtherBody), c);
            && r.0 == NoContent
            && var fired := FireTransition(r.1, |r.1.timers| - 1).client;
               Current(table, fired) == Json(CurrentColor(name, Some(Lookup(table, name).value)))
  {
    var color := Lookup(table, name).value;
    OpcProperties.FillTakesEffectWhenTimerFires(c, color, None);
  }
}

=== FILE: http.dfy ===
/**
 The replies the two controllers give, and how an exception the client
 throws inside a handler reaches the caller: hapi wraps it as an internal
 error, and the global error handler turns one whose data carries code 503
 into a 503 reply with the error's message.
 */
module Http {
  import opened Opc

  /** `reply().code(204)`, `reply(body)` (status 200), or an error reply. */
  datatype Reply<T> = NoContent | Json(body: T) | Fail(code: int, message: string)

  const InternalMessage: string := "An internal server error occurred"

  /** The reply a handler produces when the client throws `f`. */
  function ThrownReply(f: Fault): (r: Reply<()>)
    ensures r.Fail?
    ensures f == Unavailable <==> r.code == UnavailableCode
    ensures f == Unavailable ==> r.message == UnavailableMessage
    ensures f != Unavailable ==> r.code == 500
  {
    if f == Unavailable then Fail(UnavailableCode, UnavailableMessage) else Fail(500, InternalMessage)
  }

  /** The reply of a handler whose last client call ended with `o`, when the
      handler answers 204 on success. */
  function Completed(o: Outcome): (r: Reply<()>)
    ensures o.Done? <==> r == NoContent
    ensures o.Threw? ==> r == ThrownReply(o.fault)
  {
    match o
    case Done => NoContent
    case Threw(f) => ThrownReply(f)
  }
}

=== FILE: js.dfy ===
/**
 The few pieces of JavaScript value semantics the OPC client and the
 controllers rely on: null/undefined as `Option`, thrown errors as
 `Result`, truthiness tests, and the `x | 0` integer conversion.
 */
module Js {

  /** `null`/`undefined` (None) or a present value. */
  datatype Option<+T> = None | Some(value: T)

  /** The value of an expression, or the error it throws. */
  datatype Result<+T, +E> = Ok(value: T) | Err(error: E)

  const TwoTo31: int := 0x8000_0000
  const TwoTo32: int := 0x1_0000_0000

  /** ToInt32, the conversion `x | 0` applies, on integer inputs: the result
      is the unique int32 congruent to `x` modulo 2^32. */
  function ToInt32(x: int): (r: int)
    ensures -TwoTo31 <= r < TwoTo31
    ensures (x - r) % TwoTo32 == 0
    ensures -TwoTo31 <= x < TwoTo31 ==> r == x
  {
    var m := (x + TwoTo31) % TwoTo32;
    assert x - (m - TwoTo31) == TwoTo32 * ((x + TwoTo31) / TwoTo32);
    m - TwoTo31
  }

  /** `if (s)` for an optional string: `undefined`, `null` and `""` are falsy. */
  predicate TruthyString(s: Option<string>) {
    s.Some? && s.value != ""
  }

  /** `if (n)` for an optional number: `undefined`, `null` and `0` are falsy. */
  predicate TruthyNumber(n: Option<int>) {
    n.Some? && n.value != 0
  }

  /** `n || fallback` on an optional number. */
  function OrElse(n: Option<int>, fallback: int): (r: int)
    ensures TruthyNumber(n) ==> r == n.value
    ensures !TruthyNumber(n) ==> r == fallback
  {
    if TruthyNumber(n) then n.value else fallback
  }
}

=== FILE: opc_client.dfy ===
/**
 The OPC client (`OPC` in lib/opc.js) as a state machine over an immutable
 record. Each public method is a pure step. So is each callback the
 JavaScript runtime would run later: a transition timer firing, the socket
 connecting, failing or closing, a reconnect timer firing, a pattern's
 interval ticking. Promises become an array of settled flags, and
 `connecting` is an index into it. The sends waiting on a pending promise
 are an explicit list, and the frames handed to `socket.write` are logged
 in order.
 */
module Opc {
  import opened Js
  import opened PixelBuffers

  /** Settings the constructor reads from configuration. */
  datatype Settings = Settings(
    numPixels: int,
    reconnectDelay: int,
    startColor: Color,
    defaultFillSpeed: int)

  /** The values the constructor falls back to when a key is absent. */
  function DefaultSettings(numPixels: int): (s: Settings)
    ensures s.numPixels == numPixels && s.reconnectDelay == 5000
    ensures s.startColor == [0, 0, 0] && s.defaultFillSpeed == 500
  {
    Settings(numPixels, 5000, [0, 0, 0], 500)
  }

  /** A pattern function from the registry. Calling it starts an interval
      and returns the interval's handle; what it draws is not modelled. */
  datatype Pattern = Pattern(id: nat)

  type Handle = nat
  type Frame = seq<Byte>

  /** The life of one `net.Socket`. Node reports 'error' before 'close' on a
      failure, and 'close' after any end of the connection. */
  datatype SocketPhase = Opening | Open | Failed | Closed

  /** A socket the client created, and the deferred of the `connect` call
      that created it (its callbacks resolve that deferred, and its close
      handler hands it to the reconnect timer). */
  datatype Socket = Socket(deferred: nat, phase: SocketPhase)

  /** What a transition timer does when it fires. */
  datatype Action =
    | ShowPixels(pixels: PixelBuffer, color: Color)  // fillColor's callback
    | RunPattern(pattern: Pattern)                   // startPattern's callback

  datatype Timer = Timer(action: Action, delay: int)
  datatype Reconnect = Reconnect(deferred: nat, delay: int)

  /** A `connecting.then(...)` callback of `send`, waiting on a pending promise. */
  datatype Waiter = Waiter(promise: nat, frame: Frame)

  datatype Client = Client(
    host: Option<string>,
    port: Option<int>,
    settings: Settings,
    sockets: seq<Socket>,           // every socket ever created
    socket: Option<nat>,            // `this.socket`
    promises: seq<bool>,            // settled flag of every deferred
    connecting: Option<nat>,        // `this.connecting`
    waiters: seq<Waiter>,
    reconnects: seq<Reconnect>,     // pending reconnect timers
    timers: seq<Timer>,             // pending transition timers
    currentPattern: Option<Handle>, // `this.currentPattern`
    running: map<Handle, Pattern>,  // intervals not yet cleared
    nextHandle: Handle,
    currentPixels: Option<PixelBuffer>,
    currentColor: Option<Color>,
    written: seq<Frame>)            // frames handed to `socket.write`

  /** What an operation throws. */
  datatype Fault =
    | Unavailable                  // `{ message: 'No OPC connection available.', code: 503 }`
    | BadBuffer(error: BufferError)
    | NoSocket                     // TypeError: `that.socket` is null in the connect callback
    | SecondServer                 // the factory asked for a second server

  const UnavailableCode: int := 503
  const UnavailableMessage: string := "No OPC connection available."

  datatype Outcome = Done | Threw(fault: Fault)

  /** The client after a step, and whether the step threw. A throw does not
      undo what the step changed before it. */
  datatype After = After(client: Client, outcome: Outcome)

  /** What `send` is given: a raw Buffer or a PixelBuffer. */
  datatype Payload = Raw(frame: Frame) | Pixels(buffer: PixelBuffer)

  /** The indices in the client's record all point somewhere. Callbacks wait
      only on pending promises, the current socket is live, and the current
      pattern's interval is one that is still running. */
  predicate Valid(c: Client) {
    && (c.connecting.Some? ==> c.connecting.value < |c.promises|)
    && (c.socket.Some? ==> c.socket.value < |c.sockets|
                           && c.sockets[c.socket.value].phase in {Opening, Open})
    && (forall k :: 0 <= k < |c.sockets| ==> c.sockets[k].deferred < |c.promises|)
    && (forall w :: w in c.waiters ==> w.promise < |c.promises| && !c.promises[w.promise])
    && (forall r :: r in c.reconnects ==> r.deferred < |c.promises|)
    && (c.currentPattern.Some? ==> c.currentPattern.value in c.running)
    && (forall h :: h in c.running ==> h < c.nextHandle)
  }

  /** `new OPC(host, port)`: no socket, no connection attempt, nothing shown. */
  function NewClient(host: Option<string>, port: Option<int>, settings: Settings): (c: Client)
    ensures Valid(c)
    ensures !IsConnected(c) && !IsConnecting(c)
    ensures c.connecting.None? && c.currentPattern.None?
    ensures c.currentPixels.None? && c.currentColor.None?
    ensures c.running == map[] && c.timers == [] && c.written == []
    ensures c.host == host && c.port == port && c.settings == settings
  {
    Client(host, port, settings, [], None, [], None, [], [], [], None, map[], 0, None, None, [])
  }

  /** `isConnected()`: a socket object exists, which holds from the moment
      `connect` creates it, before the TCP connection is established. */
  predicate IsConnected(c: Client) {
    c.socket.Some?
  }

  /** `isConnecting()`: there is a connect promise and it is still pending. */
  predicate IsConnecting(c: Client)
    requires Valid(c)
  {
    c.connecting.Some? && !c.promises[c.connecting.value]
  }

  /** The frames of the callbacks waiting on promise `d`, in the order they
      were registered. */
  function FramesOn(ws: seq<Waiter>, d: nat): (r: seq<Frame>)
    ensures |r| <= |ws|
  {
    if ws == [] then []
    else FramesOn(ws[..|ws| - 1], d) + (if ws[|ws| - 1].promise == d then [ws[|ws| - 1].frame] else [])
  }

  /** The callbacks that do not wait on promise `d`. */
  function NotOn(ws: seq<Waiter>, d: nat): (r: seq<Waiter>)
    ensures forall w :: w in r <==> w in ws && w.promise != d
  {
    if ws == [] then []
    else NotOn(ws[..|ws| - 1], d) + (if ws[|ws| - 1].promise != d then [ws[|ws| - 1]] else [])
  }

  /** `opc.socket.write(frame)` in a send callback. With no socket the call
      throws a TypeError; the catch block's `this.connect()` is called on the
      callback's receiver, not on the client, so it throws too and the frame
      is dropped. */
  function Write(c: Client, f: Frame): (r: Client)
    ensures c.socket.Some? ==> r == c.(written := c.written + [f])
    ensures c.socket.None? ==> r == c
  {
    if c.socket.Some? then c.(written := c.written + [f]) else c
  }

  /** The last timer `r` holds is a fill of `color` over `numPixels`
      pixels that fires after `delay` milliseconds. */
  predicate FillsLast(r: Client, numPixels: int, color: Color, delay: int)
  {
    && 0 <= numPixels <= MaxPixels
    && |r.timers| > 0
    && var t := r.timers[|r.timers| - 1];
       && t.delay == delay
       && t.action.ShowPixels?
       && t.action.color == color
       && t.action.pixels.bytes == SolidFrame(numPixels, Channel(color, 0), Channel(color, 1), Channel(color, 2))
  }

  /** Where a raw send of `f` leaves its bytes: queued behind a pending
      connect promise, on the wire when the promise is settled and a socket
      exists, and nowhere otherwise (no promise: 503; no socket: dropped). */
  predicate Sends(c: Client, r: Client, f: Frame)
    requires Valid(c)
  {
    && r.waiters == (if IsConnecting(c) then c.waiters + [Waiter(c.connecting.value, f)] else c.waiters)
    && r.written == (if c.connecting.Some? && !IsConnecting(c) && c.socket.Some? then c.written + [f] else c.written)
  }

  /** `deferred.resolve(opc)`: settle promise `d` and run the send callbacks
      waiting on it, in registration order. Resolving a settled promise does
      nothing. */
  function Resolve(c: Client, d: nat): (r: Client)
    requires Valid(c) && d < |c.promises|
    ensures Valid(r)
    ensures r.promises == c.promises[d := true]
    ensures c.promises[d] ==> r == c
    ensures !c.promises[d] ==> r.waiters == NotOn(c.waiters, d)
    ensures !c.promises[d] && c.socket.Some? ==> r.written == c.written + FramesOn(c.waiters, d)
    ensures !c.promises[d] && c.socket.None? ==> r.written == c.written
    ensures r == c.(promises := r.promises, waiters := r.waiters, written := r.written)
  {
    if c.promises[d] then c
    else
      var flushed := FramesOn(c.waiters, d);
      c.(promises := c.promises[d := true],
         waiters := NotOn(c.waiters, d),
         written := if c.socket.Some? then c.written + flushed else c.written)
  }

  /** `send(buffer)` for a raw Buffer. With no connect promise it throws the
      503 error. With a settled promise the callback runs at once and
      writes. With a pending one it waits for the promise. */
  function SendRaw(c: Client, f: Frame): (r: After)
    requires Valid(c)
    ensures Valid(r.client)
    ensures c.connecting.None? <==> r.outcome == Threw(Unavailable)
    ensures r.outcome.Threw? ==> r.client == c
    ensures IsConnecting(c) ==>
      r.client == c.(waiters := c.waiters + [Waiter(c.connecting.value, f)])
    ensures c.connecting.Some? && !IsConnecting(c) ==> r.client == Write(c, f)
    ensures r.client.socket == c.socket && r.client.connecting == c.connecting && r.client.promises == c.promises
    ensures r.client == c.(waiters := r.client.waiters, written := r.client.written)
  {
    if c.connecting.None? then After(c, Threw(Unavailable))
    else if !c.promises[c.connecting.value] then
      After(c.(waiters := c.waiters + [Waiter(c.connecting.value, f)]), Done)
    else After(Write(c, f), Done)
  }

  /** `send(pixels)`. A PixelBuffer is first recorded as `currentPixels`,
      then its bytes are sent raw; the record stays even when that throws. */
  function Send(c: Client, p: Payload): (r: After)
    requires Valid(c)
    ensures Valid(r.client)
    ensures p.Pixels? ==> r.client.currentPixels == Some(p.buffer)
    ensures p.Raw? ==> r.client.currentPixels == c.currentPixels
    ensures c.connecting.None? <==> r.outcome == Threw(Unavailable)
    ensures p.Raw? && c.connecting.None? ==> r.client == c
    ensures r.client.currentColor == c.currentColor && r.client.currentPattern == c.currentPattern
    ensures r.client.socket == c.socket && r.client.connecting == c.connecting && r.client.promises == c.promises
    ensures Sends(c, r.client, if p.Raw? then p.frame else p.buffer.bytes)
    ensures r.client == c.(currentPixels := r.client.currentPixels, waiters := r.client.waiters, written := r.client.written)
  {
    match p
    case Raw(f) => SendRaw(c, f)
    case Pixels(b) => SendRaw(c.(currentPixels := Some(b)), b.bytes)
  }

  /** `connect(deferred)`. While a connect promise is pending it returns that
      promise and changes nothing. Otherwise it makes `deferred` (a fresh one
      when none is passed) the connect promise. It resolves the promise at
      once if a socket exists, and creates a socket otherwise. */
  function ConnectWith(c: Client, reuse: Option<nat>): (r: (Client, nat))
    requires Valid(c)
    requires reuse.Some? ==> reuse.value < |c.promises| && !c.promises[reuse.value]
    ensures Valid(r.0)
    ensures r.0.connecting == Some(r.1)
    ensures IsConnecting(c) ==> r.0 == c && r.1 == c.connecting.value
    ensures !IsConnecting(c) && reuse.Some? ==> r.1 == reuse.value
    ensures !IsConnecting(c) && reuse.None? ==> r.1 == |c.promises| && |r.0.promises| == |c.promises| + 1
    ensures !IsConnecting(c) && c.socket.None? ==>
      && r.0.sockets == c.sockets + [Socket(r.1, Opening)]
      && r.0.socket == Some(|c.sockets|)
      && IsConnecting(r.0)
    ensures !IsConnecting(c) && c.socket.Some? ==>
      && r.0.sockets == c.sockets && r.0.socket == c.socket
      && r.0.promises[r.1]
    ensures r.0.currentPattern == c.currentPattern && r.0.currentColor == c.currentColor
    ensures r.0.currentPixels == c.currentPixels && r.0.timers == c.timers
    ensures !IsConnecting(c) && c.socket.None? ==>
      r.0 == c.(sockets := r.0.sockets, socket := r.0.socket, promises := r.0.promises, connecting := r.0.connecting)
    ensures !IsConnecting(c) && c.socket.Some? ==>
      r.0 == c.(promises := r.0.promises, connecting := r.0.connecting,
                waiters := NotOn(c.waiters, r.1), written := c.written + FramesOn(c.waiters, r.1))
  {
    if IsConnecting(c) then (c, c.connecting.value)
    else
      var d := if reuse.Some? then reuse.value else |c.promises|;
      var c1 := c.(promises := if reuse.Some? then c.promises else c.promises + [false],
                   connecting := Some(d));
      if c1.socket.Some? then (Resolve(c1, d), d)
      else (c1.(sockets := c1.sockets + [Socket(d, Opening)], socket := Some(|c1.sockets|)), d)
  }

  /** `connect()` as its callers use it, with no deferred. */
  function Connect(c: Client): (r: (Client, nat))
    requires Valid(c)
    ensures Valid(r.0) && r.0.connecting == Some(r.1)
    ensures IsConnecting(c) ==> r == (c, c.connecting.value)
    ensures !IsConnecting(c) ==> r.1 == |c.promises|
    ensures !IsConnecting(c) ==> (IsConnecting(r.0) <==> c.socket.None?)
    ensures !IsConnecting(c) && c.socket.None? ==>
      r.0 == c.(sockets := c.sockets + [Socket(r.1, Opening)], socket := Some(|c.sockets|),
                promises := c.promises + [false], connecting := Some(r.1))
    ensures !IsConnecting(c) && c.socket.Some? ==>
      r.0 == c.(promises := c.promises + [true], connecting := Some(r.1))
  {
    var r := ConnectWith(c, None);
    if !IsConnecting(c) && c.socket.Some? then
      NothingWaitingNoFrames(c.waiters, r.1);
      NothingWaitingKeepsAll(c.waiters, r.1);
      r
    else r
  }

  /** A list with no callback on `d` releases no frame on `d`. */
  lemma {:induction false} NothingWaitingNoFrames(ws: seq<Waiter>, d: nat)
    requires forall w :: w in ws ==> w.promise != d
    ensures FramesOn(ws, d) == []
    decreases |ws|
  {
    if ws != [] {
      NothingWaitingNoFrames(ws[..|ws| - 1], d);
    }
  }

  /** A list with no callback on `d` keeps all its callbacks when `d`
      resolves. */
  lemma {:induction false} NothingWaitingKeepsAll(ws: seq<Waiter>, d: nat)
    requires forall w :: w in ws ==> w.promise != d
    ensures NotOn(ws, d) == ws
    decreases |ws|
  {
    if ws != [] {
      var init := ws[..|ws| - 1];
      assert ws == init + [ws[|ws| - 1]];
      NothingWaitingKeepsAll(init, d);
      assert ws[|ws| - 1] in ws;
    }
  }

  /** How a transition picks its delay: `fillSpeed || defaults.fillSpeed`,
      so a speed of 0 means the default. */
  function TransitionDelay(c: Client, speed: Option<int>): (d: int)
    ensures speed == Some(0) ==> d == c.settings.defaultFillSpeed
    ensures speed.None? ==> d == c.settings.defaultFillSpeed
    ensures TruthyNumber(speed) ==> d == speed.value
  {
    OrElse(speed, c.settings.defaultFillSpeed)
  }

  /** How `transition` treats a timer still pending from an earlier call.
      The code leaves it pending (AsWritten). CancelPending clears it first;
      that is the repair described in the README's findings. */
  datatype Schedule = AsWritten | CancelPending

  /** `transition(f, fillSpeed)`: re-send the current pixels raw (this can
      throw the 503 error, and then no timer is set), then schedule `f`. */
  function Transition(c: Client, a: Action, speed: Option<int>, sched: Schedule): (r: After)
    requires Valid(c)
    ensures Valid(r.client)
    ensures r.outcome.Threw? ==> r.outcome.fault == Unavailable
    ensures r.outcome.Threw? <==> c.currentPixels.Some? && c.connecting.None?
    ensures r.outcome.Done? && sched == AsWritten ==>
      r.client.timers == c.timers + [Timer(a, TransitionDelay(c, speed))]
    ensures r.outcome.Done? && sched == CancelPending ==>
      r.client.timers == [Timer(a, TransitionDelay(c, speed))]
    ensures r.client.currentPattern == c.currentPattern && r.client.running == c.running
    ensures r.client.currentColor == c.currentColor && r.client.currentPixels == c.currentPixels
    ensures r.client.settings == c.settings && r.client.nextHandle == c.nextHandle
    ensures r.client.sockets == c.sockets && r.client.promises == c.promises
    ensures r.client.socket == c.socket && r.client.connecting == c.connecting
    ensures c.currentPixels.None? ==> r.client.waiters == c.waiters && r.client.written == c.written
    ensures c.currentPixels.Some? ==> Sends(c, r.client, c.currentPixels.value.bytes)
    ensures r.client == c.(timers := r.client.timers, waiters := r.client.waiters, written := r.client.written)
    ensures r.outcome.Threw? && sched == AsWritten ==> r.client.timers == c.timers
    ensures r.outcome.Threw? && sched == CancelPending ==> r.client.timers == []
  {
    var c0 := if sched == CancelPending then c.(timers := []) else c;
    var replay := if c0.currentPixels.Some? then SendRaw(c0, c0.currentPixels.value.bytes) else After(c0, Done);
    if replay.outcome.Threw? then replay
    else After(replay.client.(timers := replay.client.timers + [Timer(a, TransitionDelay(c, speed))]), Done)
  }

  /** `stopPattern()`: clear the current pattern's interval and forget it;
      nothing to do when there is none. */
  function StopPattern(c: Client): (r: Client)
    requires Valid(c)
    ensures Valid(r)
    ensures r.currentPattern.None?
    ensures c.currentPattern.None? ==> r == c
    ensures c.currentPattern.Some? ==> r.running == c.running - {c.currentPattern.value}
    ensures r == c.(currentPattern := None, running := r.running)
  {
    match c.currentPattern
    case None => c
    case Some(h) => c.(currentPattern := None, running := c.running - {h})
  }

  /** `startPattern(pattern, fillSpeed)`: stop the current pattern and
      transition to one that the timer starts. */
  function StartPattern(c: Client, p: Pattern, speed: Option<int>, sched: Schedule): (r: After)
    requires Valid(c)
    ensures Valid(r.client)
    ensures r.client.currentPattern.None?
    ensures c.currentPattern.Some? ==> c.currentPattern.value !in r.client.running
    ensures r.outcome.Threw? <==> c.currentPixels.Some? && c.connecting.None?
    ensures r.outcome.Done? ==> |r.client.timers| > 0
    ensures r.outcome.Done? ==> r.client.timers[|r.client.timers| - 1] == Timer(RunPattern(p), TransitionDelay(c, speed))
    ensures r.client.currentColor == c.currentColor
    ensures r.client.socket == c.socket && r.client.connecting == c.connecting && r.client.promises == c.promises
    ensures r.client.running == StopPattern(c).running
    ensures c.currentPixels.None? ==> r.client.waiters == c.waiters && r.client.written == c.written
    ensures c.currentPixels.Some? ==> Sends(c, r.client, c.currentPixels.value.bytes)
    ensures r.client == StopPattern(c).(timers := r.client.timers, waiters := r.client.waiters, written := r.client.written)
    ensures sched == AsWritten ==>
      r.client.timers == if r.outcome.Done? then c.timers + [Timer(RunPattern(p), TransitionDelay(c, speed))] else c.timers
  {
    Transition(StopPattern(c), RunPattern(p), speed, sched)
  }

  /** `fillColor(color, fillSpeed)`: build a buffer with every pixel set to
      the colour, stop the current pattern, and transition. The timer, when
      it fires, sends the buffer and only then records the colour. Building
      the buffer throws before anything changes when the pixel count does
      not fit a frame. */
  function FillColor(c: Client, color: Color, speed: Option<int>, sched: Schedule): (r: After)
    requires Valid(c)
    ensures Valid(r.client)
    ensures r.client.sockets == c.sockets && r.client.promises == c.promises
    ensures r.client.socket == c.socket && r.client.connecting == c.connecting
    ensures !(0 <= c.settings.numPixels <= MaxPixels) ==> r.outcome.Threw? && r.client == c
    ensures 0 <= c.settings.numPixels <= MaxPixels ==>
      && r.client.currentPattern.None?
      && r.client.currentColor == c.currentColor
      && (r.outcome.Threw? <==> c.currentPixels.Some? && c.connecting.None?)
      && r.client.running == StopPattern(c).running
      && (c.currentPixels.None? ==> r.client.waiters == c.waiters && r.client.written == c.written)
      && (c.currentPixels.Some? ==> Sends(c, r.client, c.currentPixels.value.bytes))
      && r.client == StopPattern(c).(timers := r.client.timers, waiters := r.client.waiters, written := r.client.written)
    ensures 0 <= c.settings.numPixels <= MaxPixels && r.outcome.Done? ==>
      FillsLast(r.client, c.settings.numPixels, color, TransitionDelay(c, speed))
    ensures sched == AsWritten && r.outcome.Done? ==>
      |r.client.timers| == |c.timers| + 1 && r.client.timers[..|c.timers|] == c.timers
    ensures sched == AsWritten && r.outcome.Threw? ==> r.client.timers == c.timers
  {
    var speed' := Some(TransitionDelay(c, speed));
    match SolidBuffer(c.settings.numPixels, color)
    case Err(e) => After(c, Threw(BadBuffer(e)))
    case Ok(pixels) => Transition(StopPattern(c), ShowPixels(pixels, color), speed', sched)
  }

  /** `this.createPixels(this).fill(this.numPixels, color[0], color[1],
      color[2])`: the solid frame of the colour, or what `new PixelBuffer`
      throws for a pixel count that does not fit a frame. */
  function SolidBuffer(numPixels: int, color: Color): (r: Result<PixelBuffer, BufferError>)
    ensures r.Ok? <==> 0 <= numPixels <= MaxPixels
    ensures r.Err? ==> r == Err(New(numPixels).error)
    ensures r.Ok? ==> r.value.bytes == SolidFrame(numPixels, Channel(color, 0), Channel(color, 1), Channel(color, 2))
  {
    match New(numPixels)
    case Err(e) => Err(e)
    case Ok(b) =>
      FillNewIsSolidFrame(numPixels, Channel(color, 0), Channel(color, 1), Channel(color, 2));
      Ok(Fill(b, numPixels, Channel(color, 0), Channel(color, 1), Channel(color, 2)).value)
  }

  /** A transition timer fires. fillColor's callback sends its buffer as a
      PixelBuffer and then records the colour; if the send throws, the
      exception escapes the timer and the colour is not recorded.
      startPattern's callback calls the pattern and records the handle it
      returns; it does not stop an interval already running. */
  function FireTransition(c: Client, j: nat): (r: After)
    requires Valid(c) && j < |c.timers|
    ensures Valid(r.client)
    ensures r.client.timers == c.timers[..j] + c.timers[j + 1..]
    ensures c.timers[j].action.RunPattern? ==>
      && r.outcome.Done?
      && r.client.currentPattern == Some(c.nextHandle)
      && r.client.running == c.running[c.nextHandle := c.timers[j].action.pattern]
      && r.client.currentColor == c.currentColor
    ensures c.timers[j].action.ShowPixels? ==>
      && r.client.currentPixels == Some(c.timers[j].action.pixels)
      && r.client.currentPattern == c.currentPattern && r.client.running == c.running
      && (r.outcome.Done? <==> c.connecting.Some?)
      && (r.outcome.Done? ==> r.client.currentColor == Some(c.timers[j].action.color))
      && (r.outcome.Threw? ==> r.client.currentColor == c.currentColor)
      && Sends(c, r.client, c.timers[j].action.pixels.bytes)
    ensures c.timers[j].action.RunPattern? ==> r.client.waiters == c.waiters && r.client.written == c.written
    ensures c.timers[j].action.RunPattern? ==>
      r.client == c.(timers := r.client.timers, currentPattern := r.client.currentPattern,
                     running := r.client.running, nextHandle := c.nextHandle + 1)
    ensures c.timers[j].action.ShowPixels? ==>
      r.client == c.(timers := r.client.timers, currentPixels := r.client.currentPixels,
                     currentColor := r.client.currentColor, waiters := r.client.waiters, written := r.client.written)
    ensures r.client.socket == c.socket && r.client.connecting == c.connecting && r.client.promises == c.promises
  {
    var c1 := c.(timers := c.timers[..j] + c.timers[j + 1..]);
    match c.timers[j].action
    case ShowPixels(pixels, color) =>
      var sent := Send(c1, Pixels(pixels));
      if sent.outcome.Threw? then sent
      else After(sent.client.(currentColor := Some(color)), Done)
    case RunPattern(p) =>
      After(c1.(currentPattern := Some(c1.nextHandle),
                running := c1.running[c1.nextHandle := p],
                nextHandle := c1.nextHandle + 1), Done)
  }

  /** Socket `k` establishes its connection. The callback calls
      `that.socket.setNoDelay()`, which throws if the client has since
      dropped its socket. If nothing has been shown yet it fills the start
      colour with speed 0, which means the default speed. Then it resolves
      the socket's deferred, releasing the sends waiting on it. */
  function SocketConnects(c: Client, k: nat, sched: Schedule): (r: After)
    requires Valid(c) && k < |c.sockets| && c.sockets[k].phase == Opening
    ensures Valid(r.client)
    ensures |r.client.sockets| == |c.sockets| && |r.client.promises| == |c.promises|
    ensures r.client.sockets[k].phase == Open
    ensures c.socket.None? ==> r.outcome == Threw(NoSocket)
    ensures c.socket.None? ==> r.client == c.(sockets := c.sockets[k := Socket(c.sockets[k].deferred, Open)])
    ensures c.socket.Some? && c.currentColor.None? && c.currentPixels.None? ==>
      var n := c.settings.numPixels;
      var color := c.settings.startColor;
      && (0 <= n <= MaxPixels ==>
            && r.outcome.Done?
            && FillsLast(r.client, n, color, c.settings.defaultFillSpeed)
            && r.client.waiters == NotOn(c.waiters, c.sockets[k].deferred)
            && r.client.written == c.written + FramesOn(c.waiters, c.sockets[k].deferred))
      && (!(0 <= n <= MaxPixels) ==> r.outcome.Threw? && r.client.promises == c.promises)
    ensures c.socket.Some? && (c.currentColor.Some? || c.currentPixels.Some?) ==>
      && r.outcome.Done?
      && r.client == Resolve(c.(sockets := c.sockets[k := Socket(c.sockets[k].deferred, Open)]), c.sockets[k].deferred)
    ensures r.outcome.Done? ==> r.client.promises[c.sockets[k].deferred]
    ensures r.client.socket == c.socket && r.client.connecting == c.connecting
  {
    var d := c.sockets[k].deferred;
    var c1 := c.(sockets := c.sockets[k := Socket(d, Open)]);
    if c1.socket.None? then After(c1, Threw(NoSocket))
    else if c1.currentColor.None? && c1.currentPixels.None? then StartFill(c1, d, sched)
    else After(Resolve(c1, d), Done)
  }

  /** The first connection of a client that has shown nothing yet fills the
      start colour at the default fill speed, then resolves the connect
      promise; a pixel count that does not fit a frame throws first. */
  function StartFill(c: Client, d: nat, sched: Schedule): (r: After)
    requires Valid(c) && d < |c.promises| && c.socket.Some?
    requires c.currentColor.None? && c.currentPixels.None?
    ensures Valid(r.client)
    ensures r.client.sockets == c.sockets && |r.client.promises| == |c.promises|
    ensures r.client.socket == c.socket && r.client.connecting == c.connecting
    ensures !(0 <= c.settings.numPixels <= MaxPixels) ==> r.outcome.Threw? && r.client == c
    ensures 0 <= c.settings.numPixels <= MaxPixels ==>
      var n := c.settings.numPixels;
      var color := c.settings.startColor;
      && r.outcome.Done?
      && r.client.promises[d]
      && FillsLast(r.client, n, color, c.settings.defaultFillSpeed)
      && r.client.waiters == NotOn(c.waiters, d)
      && r.client.written == c.written + FramesOn(c.waiters, d)
  {
    var filled := FillColor(c, c.settings.startColor, Some(0), sched);
    if filled.outcome.Threw? then filled
    else if c.promises[d] then
      NothingWaitingNoFrames(c.waiters, d);
      NothingWaitingKeepsAll(c.waiters, d);
      After(Resolve(filled.client, d), Done)
    else After(Resolve(filled.client, d), Done)
  }

  /** Socket `k` reports an error: the client forgets its socket, whichever
      socket reported. */
  function SocketErrors(c: Client, k: nat): (r: Client)
    requires Valid(c) && k < |c.sockets| && c.sockets[k].phase in {Opening, Open}
    ensures Valid(r)
    ensures |r.sockets| == |c.sockets|
    ensures !IsConnected(r) && r.sockets[k].phase == Failed
    ensures r.connecting == c.connecting && r.reconnects == c.reconnects
    ensures r == c.(sockets := c.sockets[k := Socket(c.sockets[k].deferred, Failed)], socket := None)
  {
    c.(sockets := c.sockets[k := c.sockets[k].(phase := Failed)], socket := None)
  }

  /** Socket `k` closes: the client forgets its socket and its connect
      promise, and schedules a reconnect that carries the socket's deferred. */
  function SocketCloses(c: Client, k: nat): (r: Client)
    requires Valid(c) && k < |c.sockets| && c.sockets[k].phase != Closed
    ensures Valid(r)
    ensures |r.sockets| == |c.sockets|
    ensures !IsConnected(r) && r.connecting.None? && r.sockets[k].phase == Closed
    ensures r.reconnects == c.reconnects + [Reconnect(c.sockets[k].deferred, c.settings.reconnectDelay)]
    ensures r.waiters == c.waiters && r.written == c.written && r.timers == c.timers
    ensures r.currentPattern == c.currentPattern && r.currentColor == c.currentColor
    ensures r == c.(sockets := c.sockets[k := Socket(c.sockets[k].deferred, Closed)], socket := None,
                    connecting := None, reconnects := r.reconnects)
  {
    c.(sockets := c.sockets[k := c.sockets[k].(phase := Closed)],
       socket := None,
       connecting := None,
       reconnects := c.reconnects + [Reconnect(c.sockets[k].deferred, c.settings.reconnectDelay)])
  }

  /** Reconnect timer `j` fires: `connect` again, passing the closed
      socket's deferred if that is still pending, so whoever waits on it is
      served by the new connection. */
  function ReconnectFires(c: Client, j: nat): (r: Client)
    requires Valid(c) && j < |c.reconnects|
    ensures Valid(r)
    ensures r.reconnects == c.reconnects[..j] + c.reconnects[j + 1..]
    ensures r.connecting.Some?
    ensures !IsConnecting(c) && !c.promises[c.reconnects[j].deferred] ==>
      r.connecting == Some(c.reconnects[j].deferred)
    ensures !IsConnecting(c) ==> IsConnected(r)
    ensures !IsConnecting(c) && c.socket.None? ==>
      && r.sockets == c.sockets + [Socket(r.connecting.value, Opening)]
      && r.socket == Some(|c.sockets|) && IsConnecting(r)
    ensures !IsConnecting(c) && c.socket.Some? ==> r.socket == c.socket && !IsConnecting(r)
    ensures IsConnecting(c) ==> r == c.(reconnects := c.reconnects[..j] + c.reconnects[j + 1..])
    ensures !IsConnecting(c) && c.socket.None? ==>
      r == c.(sockets := r.sockets, socket := r.socket, promises := r.promises,
              connecting := r.connecting, reconnects := r.reconnects)
    ensures !IsConnecting(c) && c.socket.Some? ==>
      r == c.(promises := r.promises, connecting := r.connecting, reconnects := r.reconnects,
              waiters := NotOn(c.waiters, r.connecting.value),
              written := c.written + FramesOn(c.waiters, r.connecting.value))
  {
    var d := c.reconnects[j].deferred;
    var c1 := c.(reconnects := c.reconnects[..j] + c.reconnects[j + 1..]);
    ConnectWith(c1, if !c1.promises[d] then Some(d) else None).0
  }

  /** Everything that can happen to the client: a caller's method call, or a
      callback the runtime runs. */
  datatype Event =
    | CallConnect
    | CallSend(payload: Payload)
    | CallStopPattern
    | CallStartPattern(pattern: Pattern, speed: Option<int>)
    | CallFillColor(color: Color, speed: Option<int>)
    | TransitionTimer(timer: nat)
    | SocketConnect(socket: nat)
    | SocketError(socket: nat)
    | SocketClose(socket: nat)
    | ReconnectTimer(reconnect: nat)
    | PatternTick(handle: Handle, frame: Frame)

  /** Whether the runtime can deliver the event now: a timer or interval
      that exists, a socket event its socket's life allows. */
  predicate Enabled(c: Client, e: Event) {
    match e
    case TransitionTimer(j) => j < |c.timers|
    case SocketConnect(k) => k < |c.sockets| && c.sockets[k].phase == Opening
    case SocketError(k) => k < |c.sockets| && c.sockets[k].phase in {Opening, Open}
    case SocketClose(k) => k < |c.sockets| && c.sockets[k].phase != Closed
    case ReconnectTimer(j) => j < |c.reconnects|
    case PatternTick(h, _) => h in c.running
    case _ => true
  }

  /** One step of the client: a method call or a callback. */
  function Step(c: Client, e: Event, sched: Schedule): (r: After)
    requires Valid(c) && Enabled(c, e)
    ensures Valid(r.client)
    ensures r.client.settings == c.settings
  {
    if IsCall(e) then Call(c, e, sched) else Callback(c, e, sched)
  }

  predicate IsCall(e: Event) {
    e.CallConnect? || e.CallSend? || e.CallStopPattern? || e.CallStartPattern? || e.CallFillColor?
  }

  /** A call of one of the client's methods. */
  function Call(c: Client, e: Event, sched: Schedule): (r: After)
    requires Valid(c) && IsCall(e)
    ensures Valid(r.client)
    ensures r.client.settings == c.settings
  {
    match e
    case CallConnect => After(Connect(c).0, Done)
    case CallSend(p) => Send(c, p)
    case CallStopPattern => After(StopPattern(c), Done)
    case CallStartPattern(p, speed) => StartPattern(c, p, speed, sched)
    case CallFillColor(color, speed) => FillColor(c, color, speed, sched)
  }

  /** A timer, socket or interval callback. A pattern's tick sends its
      frame raw, so it does not become `currentPixels`. */
  function Callback(c: Client, e: Event, sched: Schedule): (r: After)
    requires Valid(c) && Enabled(c, e) && !IsCall(e)
    ensures Valid(r.client)
    ensures r.client.settings == c.settings
  {
    match e
    case TransitionTimer(j) => FireTransition(c, j)
    case SocketConnect(k) => SocketConnects(c, k, sched)
    case SocketError(k) => After(SocketErrors(c, k), Done)
    case SocketClose(k) => After(SocketCloses(c, k), Done)
    case ReconnectTimer(j) => After(ReconnectFires(c, j), Done)
    case PatternTick(_, f) => SendRaw(c, f)
  }

  /** The module's export: the first call builds the one client, later calls
      without a host or port return it, and later calls with one throw. */
  function Obtain(singleton: Option<Client>, host: Option<string>, port: Option<int>, settings: Settings)
    : (r: (Option<Client>, Result<Client, Fault>))
    ensures singleton.None? ==> r.0 == Some(NewClient(host, port, settings)) && r.1 == Ok(r.0.value)
    ensures singleton.Some? ==> r.0 == singleton
    ensures singleton.Some? && !TruthyString(host) && !TruthyNumber(port) ==> r.1 == Ok(singleton.value)
    ensures singleton.Some? && (TruthyString(host) || TruthyNumber(port)) ==> r.1 == Err(SecondServer)
  {
    if singleton.None? then
      var c := NewClient(host, port, settings);
      (Some(c), Ok(c))
    else if TruthyString(host) || TruthyNumber(port) then (singleton, Err(SecondServer))
    else (singleton, Ok(singleton.value))
  }
}

=== FILE: opc_properties.dfy ===
/**
 Properties of the OPC client that span several steps: start-up, the
 close/reconnect cycle, a fill taking effect, and the pattern overlap.
 The overlap is a defect of `transition` (see the README's findings),
 shown here next to the repaired schedule that removes it.
 */
module OpcProperties {
  import opened Js
  import opened PixelBuffers
  import opened Opc

  /** `connect()` on a new client creates a socket at once, so the client
      reports itself connected while the connect promise is still pending. */
  lemma ConnectedBeforeEstablished(host: Option<string>, port: Option<int>, settings: Settings)
    ensures var r := Connect(NewClient(host, port, settings));
            && IsConnected(r.0) && IsConnecting(r.0)
            && r.0.sockets == [Socket(r.1, Opening)]
  {
  }

  /** What `isConnected()` reports over the client's life: `connect` (also
      from the reconnect timer) makes it true unless a connect was already
      pending, a socket's error or close makes it false, and nothing else
      touches it. */
  lemma ConnectedChangesOnlyBySocketEvents(c: Client, e: Event, sched: Schedule)
    requires Valid(c) && Enabled(c, e)
    ensures var r := Step(c, e, sched).client;
            && ((e.CallConnect? || e.ReconnectTimer?) && !IsConnecting(c) ==> IsConnected(r))
            && ((e.CallConnect? || e.ReconnectTimer?) && IsConnecting(c) ==> r.socket == c.socket)
            && (e.SocketError? || e.SocketClose? ==> !IsConnected(r))
            && (!(e.CallConnect? || e.ReconnectTimer? || e.SocketError? || e.SocketClose?) ==>
                  r.socket == c.socket)
  {
  }

  /** What `isConnecting()` reports over the client's life: `connect` leaves
      the client connecting exactly when it was, or had to create a socket;
      a close ends it; the connection of the socket whose deferred is the
      connect promise settles it; sends, patterns, fills, timers and errors
      leave it alone. */
  lemma ConnectingChangesOnlyByConnectEvents(c: Client, e: Event, sched: Schedule)
    requires Valid(c) && Enabled(c, e)
    ensures var r := Step(c, e, sched);
            && (e.CallConnect? ==> (IsConnecting(r.client) <==> IsConnecting(c) || c.socket.None?))
            && (e.SocketClose? ==> !IsConnecting(r.client))
            && (e.SocketConnect? && r.outcome.Done? && c.connecting == Some(c.sockets[e.socket].deferred) ==>
                  !IsConnecting(r.client))
            && (!(e.CallConnect? || e.SocketClose? || e.SocketConnect? || e.ReconnectTimer?) ==>
                  r.client.connecting == c.connecting && (IsConnecting(r.client) <==> IsConnecting(c)))
  {
  }

  /** With every configuration key absent, the first connection schedules
      black after half a second and reconnects wait five seconds. */
  lemma DefaultStartIsBlackAfterHalfASecond(host: Option<string>, port: Option<int>, numPixels: int)
    requires 0 <= numPixels <= MaxPixels
    ensures var c := Connect(NewClient(host, port, DefaultSettings(numPixels))).0;
            var a := SocketConnects(c, 0, AsWritten).client;
            && |a.timers| == 1
            && a.timers[0].delay == 500
            && a.timers[0].action == ShowPixels(a.timers[0].action.pixels, [0, 0, 0])
            && a.timers[0].action.pixels.bytes == SolidFrame(numPixels, 0, 0, 0)
            && SocketCloses(c, 0).reconnects == [Reconnect(0, 5000)]
  {
    StartColorWaitsForDefaultDelay(host, port, DefaultSettings(numPixels));
  }

  /** Start-up: the first connection fills the start colour. It asks for
      speed 0, which `||` turns into the default, so the colour appears
      only after the default delay. Then the connect promise resolves. */
  lemma StartColorWaitsForDefaultDelay(host: Option<string>, port: Option<int>, settings: Settings)
    requires 0 <= settings.numPixels <= MaxPixels
    ensures var r := Connect(NewClient(host, port, settings));
            && r.0.socket == Some(0) && r.1 == 0
            && var a := SocketConnects(r.0, 0, AsWritten);
               && a.outcome.Done?
               && a.client.promises[0]
               && |a.client.timers| == 1
               && a.client.timers[0].delay == settings.defaultFillSpeed
               && a.client.timers[0].action.ShowPixels?
               && a.client.timers[0].action.color == settings.startColor
               && a.client.currentColor.None?
  {
    var c1 := Connect(NewClient(host, port, settings)).0;
    assert c1.socket == Some(0) && c1.currentColor.None? && c1.currentPixels.None?;
    var c2 := c1.(sockets := c1.sockets[0 := Socket(0, Open)]);
    var f := FillColor(c2, settings.startColor, Some(0), AsWritten);
    assert f.outcome.Done? && |f.client.timers| == 1;
  }

  /** A solid fill reaches the wire when its timer fires: with a settled
      connection and a socket, firing the timer `fillColor` scheduled writes
      the solid frame and records the colour. */
  lemma FillTakesEffectWhenTimerFires(c: Client, color: Color, speed: Option<int>)
    requires Valid(c)
    requires 0 <= c.settings.numPixels <= MaxPixels
    requires c.connecting.Some? && c.promises[c.connecting.value] && c.socket.Some?
    ensures FillColor(c, color, speed, AsWritten).outcome.Done?
    ensures var a := FillColor(c, color, speed, AsWritten).client;
            var b := FireTransition(a, |a.timers| - 1);
            && b.outcome.Done?
            && b.client.currentColor == Some(color)
            && b.client.currentPattern.None?
            && |b.client.written| > 0
            && b.client.written[|b.client.written| - 1]
               == SolidFrame(c.settings.numPixels, Channel(color, 0), Channel(color, 1), Channel(color, 2))
  {
    var a := FillColor(c, color, speed, AsWritten).client;
    FillTimerWrites(a, |a.timers| - 1);
  }

  /** A fill timer firing on a settled connection with a socket writes its
      frame and records its colour. */
  lemma {:induction false} FillTimerWrites(a: Client, j: nat)
    requires Valid(a) && j < |a.timers| && a.timers[j].action.ShowPixels?
    requires a.connecting.Some? && a.promises[a.connecting.value] && a.socket.Some?
    ensures var b := FireTransition(a, j);
            && b.outcome.Done?
            && b.client.currentColor == Some(a.timers[j].action.color)
            && b.client.currentPattern == a.currentPattern
            && b.client.written == a.written + [a.timers[j].action.pixels.bytes]
  {
    var t := a.timers[j];
    var a1 := a.(timers := a.timers[..j] + a.timers[j + 1..]);
    assert Send(a1, Pixels(t.action.pixels)).client.written == a1.written + [t.action.pixels.bytes];
  }

  /** The close/reconnect cycle. The open socket closes. A send in the gap
      throws 503. The reconnect timer creates a new socket, sends made while
      it connects wait, and they reach the wire in the order they were made
      once it connects. */
  lemma ReconnectDeliversQueuedFramesInOrder(c: Client, k: nat, f1: Frame, f2: Frame)
    requires Valid(c)
    requires c.socket == Some(k) && c.sockets[k].phase == Open
    requires c.connecting.Some? && c.promises[c.connecting.value]
    requires c.waiters == [] && c.reconnects == [] && c.currentColor.Some?
    ensures var c1 := SocketCloses(c, k);
            && !IsConnected(c1) && c1.connecting.None?
            && SendRaw(c1, f1).outcome == Threw(Unavailable)
            && var c2 := ReconnectFires(c1, 0);
               var k2 := |c.sockets|;
               && IsConnected(c2) && IsConnecting(c2)
               && c2.socket == Some(k2) && c2.sockets[k2].phase == Opening
               && var c4 := SendRaw(SendRaw(c2, f1).client, f2).client;
                  && c4.written == c.written
                  && var a := SocketConnects(c4, k2, AsWritten);
                     && a.outcome.Done?
                     && a.client.written == c.written + [f1, f2]
                     && !IsConnecting(a.client)
  {
    CloseThenReconnect(c, k);
    var c2 := ReconnectFires(SocketCloses(c, k), 0);
    SendTwoThenConnect(c2, |c.sockets|, f1, f2);
  }

  /** The second half of the cycle: two sends wait on the new socket's
      pending promise and are written in order when it connects. */
  lemma {:induction false} SendTwoThenConnect(c: Client, k: nat, f1: Frame, f2: Frame)
    requires Valid(c) && IsConnecting(c) && c.socket == Some(k)
    requires c.sockets[k] == Socket(c.connecting.value, Opening)
    requires c.waiters == [] && c.currentColor.Some?
    ensures var c4 := SendRaw(SendRaw(c, f1).client, f2).client;
            && c4.written == c.written
            && var a := SocketConnects(c4, k, AsWritten);
               && a.outcome.Done?
               && a.client.written == c.written + [f1, f2]
               && !IsConnecting(a.client)
  {
    var d := c.connecting.value;
    TwoSendsWait(c, f1, f2);
    var c4 := SendRaw(SendRaw(c, f1).client, f2).client;
    var c5 := c4.(sockets := c4.sockets[k := Socket(d, Open)]);
    assert FramesOn(c5.waiters, d) == [f1, f2];
  }

  /** Two sends on a pending promise register their callbacks in order. */
  lemma {:induction false} TwoSendsWait(c: Client, f1: Frame, f2: Frame)
    requires Valid(c) && IsConnecting(c) && c.waiters == []
    ensures var c4 := SendRaw(SendRaw(c, f1).client, f2).client;
            && c4 == c.(waiters := Queued(c.connecting.value, [f1, f2]))
            && FramesOn(c4.waiters, c.connecting.value) == [f1, f2]
  {
    var d := c.connecting.value;
    FramesOnQueued([], d, [f1, f2]);
    assert [] + Queued(d, [f1, f2]) == Queued(d, [f1, f2]);
  }

  /** The first half of the cycle: after the close and the reconnect timer
      the client has a fresh socket that is still opening, carrying the
      pending connect promise, and nothing is waiting or written yet. */
  lemma {:induction false} CloseThenReconnect(c: Client, k: nat)
    requires Valid(c)
    requires c.socket == Some(k) && c.sockets[k].phase == Open
    requires c.connecting.Some? && c.promises[c.connecting.value]
    requires c.waiters == [] && c.reconnects == [] && c.currentColor.Some?
    ensures var c2 := ReconnectFires(SocketCloses(c, k), 0);
            var k2 := |c.sockets|;
            && IsConnected(c2) && IsConnecting(c2)
            && c2.socket == Some(k2) && k2 < |c2.sockets|
            && c2.sockets[k2] == Socket(c2.connecting.value, Opening)
            && c2.waiters == [] && c2.written == c.written && c2.currentColor.Some?
  {
    var c1 := SocketCloses(c, k);
    assert c1.reconnects == [Reconnect(c.sockets[k].deferred, c.settings.reconnectDelay)];
  }

  /** The callbacks `send` registers for frames `fs`, in order, on promise `d`. */
  function Queued(d: nat, fs: seq<Frame>): (ws: seq<Waiter>)
    ensures |ws| == |fs|
    ensures forall i :: 0 <= i < |fs| ==> ws[i] == Waiter(d, fs[i])
  {
    seq(|fs|, i requires 0 <= i < |fs| => Waiter(d, fs[i]))
  }

  /** `send` of every frame of `fs` in turn, stopping at the first throw. */
  function SendAll(c: Client, fs: seq<Frame>): (r: After)
    requires Valid(c)
    ensures Valid(r.client)
    ensures IsConnecting(c) ==>
      r == After(c.(waiters := c.waiters + Queued(c.connecting.value, fs)), Done)
    decreases |fs|
  {
    if fs == [] then After(c, Done)
    else
      var a := SendAll(c, fs[..|fs| - 1]);
      if a.outcome.Threw? then a
      else
        assert IsConnecting(c) ==> Queued(c.connecting.value, fs[..|fs| - 1]) + [Waiter(c.connecting.value, fs[|fs| - 1])]
                                   == Queued(c.connecting.value, fs);
        SendRaw(a.client, fs[|fs| - 1])
  }

  /** Appending the callbacks for `fs` on `d` appends exactly `fs` to the
      frames `d` releases. */
  lemma {:induction false} FramesOnQueued(ws: seq<Waiter>, d: nat, fs: seq<Frame>)
    ensures FramesOn(ws + Queued(d, fs), d) == FramesOn(ws, d) + fs
    decreases |fs|
  {
    if fs == [] {
      assert ws + Queued(d, fs) == ws;
    } else {
      var n := |fs| - 1;
      var front := ws + Queued(d, fs[..n]);
      assert ws + Queued(d, fs) == front + [Waiter(d, fs[n])];
      assert (front + [Waiter(d, fs[n])])[..|front|] == front;
      FramesOnQueued(ws, d, fs[..n]);
      assert fs == fs[..n] + [fs[n]];
    }
  }

  /** Sends made while a connect is pending wait, writing nothing; when the
      promise resolves with a socket in place, every one of them reaches the
      wire, after the frames queued before them, in the order they were
      made. */
  lemma {:induction false} QueuedFramesFlushInOrder(c: Client, fs: seq<Frame>)
    requires Valid(c) && IsConnecting(c) && c.socket.Some?
    ensures var s := SendAll(c, fs);
            var d := c.connecting.value;
            && s.outcome.Done?
            && s.client.written == c.written
            && Resolve(s.client, d).written == c.written + FramesOn(c.waiters, d) + fs
            && FramesOn(Resolve(s.client, d).waiters, d) == []
  {
    var d := c.connecting.value;
    var s := SendAll(c, fs).client;
    FramesOnQueued(c.waiters, d, fs);
    NothingLeftOn(s.waiters, d);
  }

  /** No callback is left waiting on a promise once it resolves. */
  lemma {:induction false} NothingLeftOn(ws: seq<Waiter>, d: nat)
    ensures FramesOn(NotOn(ws, d), d) == []
  {
    NothingWaitingNoFrames(NotOn(ws, d), d);
  }


  /** Four steps: start pattern `p`, start pattern `q` before p's timer has
      fired, then both timers fire. */
  function StartTwice(c: Client, p: Pattern, q: Pattern, sched: Schedule): After
    requires Valid(c)
  {
    var a := StartPattern(c, p, None, sched);
    var b := StartPattern(a.client, q, None, sched);
    if |b.client.timers| == 0 then b
    else
      var x := FireTransition(b.client, 0);
      if |x.client.timers| == 0 then x else FireTransition(x.client, 0)
  }

  /** At most one pattern interval runs, and it is the one `currentPattern`
      names. While a transition timer is pending there is no current pattern
      and at most that one timer. */
  predicate OnePattern(c: Client) {
    && |c.timers| <= 1
    && (|c.timers| == 1 ==> c.currentPattern.None?)
    && (forall h :: h in c.running ==> c.currentPattern == Some(h))
  }

  /** As written: two `startPattern` calls inside the transition delay
      leave p's interval running once both timers fire. `currentPattern`
      names q's interval, so no later `stopPattern` can reach p's, and p
      keeps drawing over whatever is shown. */
  lemma {:induction false} TwoStartsLeaveAnOrphanPattern(c: Client, p: Pattern, q: Pattern)
    requires Valid(c) && c.timers == [] && c.currentPixels.None?
    ensures var r := StartTwice(c, p, q, AsWritten).client;
            && r.currentPattern == Some(c.nextHandle + 1)
            && c.nextHandle in r.running && r.running[c.nextHandle] == p
            && c.nextHandle in StopPattern(r).running
            && !OnePattern(r)
  {
    var b := StartPattern(StartPattern(c, p, None, AsWritten).client, q, None, AsWritten).client;
    BothStartsPending(c, p, q);
    BothPatternTimersFire(b, p, q);
  }

  /** Both pattern timers fire in call order: each installs its own
      interval and the second becomes current, so stopping the current
      pattern leaves the first one running. */
  lemma {:induction false} BothPatternTimersFire(b: Client, p: Pattern, q: Pattern)
    requires Valid(b) && |b.timers| == 2 && b.currentPattern.None?
    requires b.timers[0].action == RunPattern(p) && b.timers[1].action == RunPattern(q)
    ensures var x := FireTransition(b, 0).client;
            && |x.timers| == 1
            && var y := FireTransition(x, 0).client;
               && y.currentPattern == Some(b.nextHandle + 1)
               && b.nextHandle in y.running && y.running[b.nextHandle] == p
               && b.nextHandle in StopPattern(y).running
               && !OnePattern(y)
  {
    var x := FireTransition(b, 0).client;
    assert x.timers == [b.timers[1]];
  }

  /** As written, the second start leaves the first one's timer pending:
      both pattern timers wait, in call order, and no interval runs. */
  lemma {:induction false} BothStartsPending(c: Client, p: Pattern, q: Pattern)
    requires Valid(c) && c.timers == [] && c.currentPixels.None?
    ensures var a := StartPattern(c, p, None, AsWritten);
            var b := StartPattern(a.client, q, None, AsWritten);
            && a.outcome.Done? && b.outcome.Done?
            && |b.client.timers| == 2
            && b.client.timers[0].action == RunPattern(p)
            && b.client.timers[1].action == RunPattern(q)
            && b.client.nextHandle == c.nextHandle
            && b.client.currentPattern.None?
  {
    var a := StartPattern(c, p, None, AsWritten).client;
    assert |a.timers| == 1 && a.timers[0].action == RunPattern(p);
  }

  /** Repaired: with transitions that cancel the pending timer, only the
      later call's pattern starts. */
  lemma {:induction false} CancelPendingStartsOnlyTheLatest(c: Client, p: Pattern, q: Pattern)
    requires Valid(c) && OnePattern(c) && c.currentPixels.None?
    ensures var r := StartTwice(c, p, q, CancelPending).client;
            && r.currentPattern == Some(c.nextHandle)
            && r.running == map[c.nextHandle := q]
            && OnePattern(r)
  {
    var a := StartPattern(c, p, None, CancelPending).client;
    var b := StartPattern(a, q, None, CancelPending).client;
    assert b.timers == [Timer(RunPattern(q), TransitionDelay(a, None))];
    assert b.running == map[] by {
      assert StopPattern(a).running == map[];
    }
    var x := FireTransition(b, 0).client;
    assert x.timers == [];
  }

  /** A new client shows no pattern and has no timer pending. */
  lemma NewClientHasOnePattern(host: Option<string>, port: Option<int>, settings: Settings)
    ensures OnePattern(NewClient(host, port, settings))
  {
  }

  /** Repaired: every step of the client keeps OnePattern. So with
      cancelling transitions, no interval ever runs that `currentPattern`
      does not name. */
  lemma {:induction false} CancelPendingKeepsOnePattern(c: Client, e: Event)
    requires Valid(c) && Enabled(c, e) && OnePattern(c)
    ensures OnePattern(Step(c, e, CancelPending).client)
  {
    var r := Step(c, e, CancelPending).client;
    match e
    case CallStartPattern(p, speed) =>
      StartKeepsOnePattern(c, p, speed);
      assert r == StartPattern(c, p, speed, CancelPending).client;
    case CallFillColor(color, speed) =>
      FillKeepsOnePattern(c, color, speed);
      assert r == FillColor(c, color, speed, CancelPending).client;
    case TransitionTimer(j) =>
      TimerKeepsOnePattern(c, j);
      assert r == FireTransition(c, j).client;
    case SocketConnect(k) =>
      SocketConnectKeepsOnePattern(c, k);
      assert r == SocketConnects(c, k, CancelPending).client;
    case _ =>
      QuietStepKeepsPatterns(c, e);
  }

  /** The steps that neither start nor stop a pattern nor schedule a
      transition leave the pattern state as it was (stopPattern can only
      shrink it). */
  lemma {:induction false} QuietStepKeepsPatterns(c: Client, e: Event)
    requires Valid(c) && Enabled(c, e) && OnePattern(c)
    requires !(e.CallStartPattern? || e.CallFillColor? || e.TransitionTimer? || e.SocketConnect?)
    ensures OnePattern(Step(c, e, CancelPending).client)
  {
    match e
    case CallStopPattern =>
    case CallConnect =>
      assert Step(c, e, CancelPending).client == Connect(c).0;
    case CallSend(p) =>
      assert Step(c, e, CancelPending) == Send(c, p);
    case SocketError(k) =>
    case SocketClose(k) =>
    case ReconnectTimer(j) =>
      assert Step(c, e, CancelPending).client == ReconnectFires(c, j);
    case PatternTick(_, f) =>
      assert Step(c, e, CancelPending) == SendRaw(c, f);
  }

  /** A repaired `startPattern` keeps OnePattern. */
  lemma {:induction false} StartKeepsOnePattern(c: Client, p: Pattern, speed: Option<int>)
    requires Valid(c) && OnePattern(c)
    ensures OnePattern(StartPattern(c, p, speed, CancelPending).client)
  {
    assert StopPattern(c).running == map[];
  }

  /** A repaired `fillColor` keeps OnePattern. */
  lemma {:induction false} FillKeepsOnePattern(c: Client, color: Color, speed: Option<int>)
    requires Valid(c) && OnePattern(c)
    ensures OnePattern(FillColor(c, color, speed, CancelPending).client)
  {
    assert StopPattern(c).running == map[];
  }

  /** A transition timer firing keeps OnePattern: a pattern timer was the
      only one pending, so no interval was running before it. */
  lemma {:induction false} TimerKeepsOnePattern(c: Client, j: nat)
    requires Valid(c) && OnePattern(c) && j < |c.timers|
    ensures OnePattern(FireTransition(c, j).client)
  {
    if c.timers[j].action.RunPattern? {
      assert c.running == map[];
    }
  }

  /** The connect callback's start-colour fill keeps OnePattern. */
  lemma {:induction false} SocketConnectKeepsOnePattern(c: Client, k: nat)
    requires Valid(c) && k < |c.sockets| && c.sockets[k].phase == Opening && OnePattern(c)
    ensures OnePattern(SocketConnects(c, k, CancelPending).client)
  {
    var d := c.sockets[k].deferred;
    var c1 := c.(sockets := c.sockets[k := Socket(d, Open)]);
    assert Valid(c1);
    if c.socket.Some? && c.currentColor.None? && c.currentPixels.None? {
      var f := FillColor(c1, c1.settings.startColor, Some(0), CancelPending);
      FillKeepsOnePattern(c1, c1.settings.startColor, Some(0));
      assert SocketConnects(c, k, CancelPending) == StartFill(c1, d, CancelPending);
      if f.outcome.Done? {
        assert StartFill(c1, d, CancelPending).client == Resolve(f.client, d);
      }
    }
  }
}

=== FILE: patterns_controller.dfy ===
/**
 The patterns controller (controllers/patterns/controller.js). `activate`
 starts a pattern from the registry and records its name in a
 module-level variable; `current` reports that name while the client has
 a current pattern.
 */
module PatternsController {
  import opened Js
  import opened Opc
  import opened Http

  /** The exported pattern functions of lib/patterns.js, by name. */
  type Registry = map<string, Pattern>

  /** The reply, the module-level `currentPattern` name, and the client. */
  datatype Activated = Activated(reply: Reply<()>, recorded: Option<string>, client: Client)

  /** `"Pattern " + pattern + " not found."`, where a missing name prints
      as "undefined". */
  function NotFoundMessage(name: Option<string>): string {
    "Pattern " + (if name.Some? then name.value else "undefined") + " not found."
  }

  /** `activate`. A registered name starts that pattern and is then
      recorded; the name is not recorded if `startPattern` throws. An
      unregistered or missing name is a 404 and changes nothing. */
  function Activate(registry: Registry, name: Option<string>, recorded: Option<string>, c: Client): (r: Activated)
    requires Valid(c)
    ensures Valid(r.client)
    ensures !TruthyString(name) ==> r == Activated(Fail(404, NotFoundMessage(name)), recorded, c)
    ensures TruthyString(name) && name.value !in registry ==>
      r == Activated(Fail(404, NotFoundMessage(name)), recorded, c)
    ensures TruthyString(name) && name.value in registry ==>
      var a := StartPattern(c, registry[name.value], None, AsWritten);
      && r.client == a.client
      && r.reply == Completed(a.outcome)
      && (a.outcome.Done? ==> r.recorded == name)
      && (a.outcome.Threw? ==> r.recorded == recorded)
    ensures r.reply == NoContent ==> r.recorded == name && r.client.currentPattern.None?
  {
    if !TruthyString(name) then Activated(Fail(404, NotFoundMessage(name)), recorded, c)
    else if name.value !in registry then Activated(Fail(404, NotFoundMessage(name)), recorded, c)
    else
      var a := StartPattern(c, registry[name.value], None, AsWritten);
      if a.outcome.Threw? then Activated(Completed(a.outcome), recorded, a.client)
      else Activated(NoContent, name, a.client)
  }

  const NoPatternMessage: string := "No current pattern running."

  /** `current`: the recorded name (null if none was ever recorded) while
      the client has a current pattern, 404 otherwise. */
  function Current(recorded: Option<string>, c: Client): (r: Reply<Option<string>>)
    ensures r.Json? <==> c.currentPattern.Some?
    ensures r.Json? ==> r.body == recorded
    ensures !r.Json? ==> r == Fail(404, NoPatternMessage)
  {
    if c.currentPattern.Some? then Json(recorded) else Fail(404, NoPatternMessage)
  }

  /** Activating a registered pattern reports 404 from `current` until its
      timer fires, and its name once it has. */
  lemma PatternReportedOnceStarted(registry: Registry, name: string, recorded: Option<string>, c: Client)
    requires Valid(c) && name != "" && name in registry
    requires c.currentPixels.None? || c.connecting.Some?
    ensures var r := Activate(registry, Some(name), recorded, c);
            && r.reply == NoContent
            && Current(r.recorded, r.client) == Fail(404, NoPatternMessage)
            && var fired := FireTransition(r.client, |r.client.timers| - 1).client;
               Current(r.recorded, fired) == Json(Some(name))
  {
  }
}

=== FILE: pixel_buffer.dfy ===
/**
 The Open Pixel Control "set pixel colours" frame as the client's
 PixelBuffer builds it: channel byte 0, command byte 0, a big-endian
 16-bit payload length, then one red, green, blue byte triple per pixel.
 A buffer is a byte sequence; every write goes through the bounds check
 of Node's `Buffer.writeUInt8`.
 */
module PixelBuffers {
  import opened Js

  type Byte = x: int | 0 <= x < 256

  /** A colour as the client receives it: a JavaScript array of numbers. */
  type Color = seq<int>

  const HeaderSize: nat := 4
  const MaxPayload: nat := 0xFFFF
  /** The most pixels whose payload length still fits the 16-bit field. */
  const MaxPixels: nat := 21845

  /** The two exceptions Node's buffer writes throw. */
  datatype BufferError =
    | IndexOutOfRange   // RangeError: offset outside the buffer
    | ValueOutOfBounds  // TypeError: value too large for the field

  datatype PixelBuffer = PixelBuffer(bytes: seq<Byte>)

  /** Every PixelBuffer holds a header and whole pixels: its length is fixed
      at 4 + 3 * numPixels when it is built and no write changes it. */
  predicate Shaped(b: PixelBuffer) {
    |b.bytes| >= HeaderSize && (|b.bytes| - HeaderSize) % 3 == 0
  }

  function PixelCount(b: PixelBuffer): nat
    requires Shaped(b)
  {
    (|b.bytes| - HeaderSize) / 3
  }

  /** The payload length a receiver reads from bytes 2 and 3. */
  function DeclaredLength(b: PixelBuffer): int
    requires |b.bytes| >= HeaderSize
  {
    b.bytes[2] as int * 256 + b.bytes[3] as int
  }

  /** A frame an OPC server accepts as "set pixel colours" on channel 0. */
  predicate WellFormed(b: PixelBuffer) {
    && Shaped(b)
    && b.bytes[0] == 0
    && b.bytes[1] == 0
    && DeclaredLength(b) == |b.bytes| - HeaderSize
  }

  /** The red, green and blue bytes of pixel `i`. */
  function Pixel(b: PixelBuffer, i: int): (Byte, Byte, Byte)
    requires Shaped(b) && 0 <= i < PixelCount(b)
  {
    var o := HeaderSize + 3 * i;
    (b.bytes[o], b.bytes[o + 1], b.bytes[o + 2])
  }

  /** `Math.max(0, Math.min(255, v | 0))`. */
  function Clamp(v: int): (r: Byte)
    ensures 0 <= ToInt32(v) <= 255 ==> r == ToInt32(v)
    ensures ToInt32(v) < 0 ==> r == 0
    ensures ToInt32(v) > 255 ==> r == 255
    ensures 0 <= v <= 255 ==> r == v
  {
    var n := ToInt32(v);
    if n < 0 then 0 else if n > 255 then 255 else n
  }

  /** The triple `set` stores for the channel values it is given. */
  function Clamped(red: int, green: int, blue: int): (Byte, Byte, Byte) {
    (Clamp(red), Clamp(green), Clamp(blue))
  }

  /** The element `k` of a colour array as `| 0` sees it: a missing element
      is `undefined`, which converts to 0. */
  function Channel(c: Color, k: nat): int {
    if k < |c| then c[k] else 0
  }

  /** `writeUInt16BE(v)`: high byte first. */
  function Uint16BE(v: int): (r: seq<Byte>)
    requires 0 <= v <= MaxPayload
    ensures |r| == 2 && r[0] as int * 256 + r[1] as int == v
  {
    [v / 256, v % 256]
  }

  function Zeroes(n: nat): (r: seq<Byte>)
    ensures |r| == n && forall k :: 0 <= k < n ==> r[k] == 0
  {
    seq(n, _ => 0)
  }

  /** `new PixelBuffer(opc)`: allocate 4 + 3 * numPixels bytes and write the
      header. A negative count leaves no room for the header; a count whose
      payload length does not fit 16 bits makes `writeUInt16BE` throw. */
  function New(numPixels: int): (r: Result<PixelBuffer, BufferError>)
    ensures r.Ok? <==> 0 <= numPixels <= MaxPixels
    ensures numPixels < 0 ==> r == Err(IndexOutOfRange)
    ensures numPixels > MaxPixels ==> r == Err(ValueOutOfBounds)
    ensures r.Ok? ==> && WellFormed(r.value)
                      && |r.value.bytes| == HeaderSize + 3 * numPixels
                      && PixelCount(r.value) == numPixels
                      && DeclaredLength(r.value) == 3 * numPixels
  {
    if numPixels < 0 then Err(IndexOutOfRange)
    else if 3 * numPixels > MaxPayload then Err(ValueOutOfBounds)
    else Ok(PixelBuffer([0, 0] + Uint16BE(3 * numPixels) + Zeroes(3 * numPixels)))
  }

  /** `buffer.writeUInt8(value, offset)`: throws unless the offset is inside
      the buffer. */
  function WriteUInt8(b: PixelBuffer, offset: int, value: Byte): (r: Result<PixelBuffer, BufferError>)
    ensures r.Ok? <==> 0 <= offset < |b.bytes|
    ensures r.Err? ==> r.error == IndexOutOfRange
    ensures r.Ok? ==> |r.value.bytes| == |b.bytes| && r.value.bytes[offset] == value
    ensures r.Ok? ==> forall k :: 0 <= k < |b.bytes| && k != offset ==> r.value.bytes[k] == b.bytes[k]
  {
    if 0 <= offset < |b.bytes| then Ok(PixelBuffer(b.bytes[offset := value])) else Err(IndexOutOfRange)
  }

  /** `set(i, r, g, b)`: three clamped writes at offsets 4 + 3i, +1, +2. */
  function Set(b: PixelBuffer, i: int, red: int, green: int, blue: int): (r: Result<PixelBuffer, BufferError>)
    ensures r.Ok? <==> 0 <= HeaderSize + 3 * i && HeaderSize + 3 * i + 2 < |b.bytes|
    ensures r.Err? ==> r.error == IndexOutOfRange
    ensures r.Ok? ==>
      var o := HeaderSize + 3 * i;
      && |r.value.bytes| == |b.bytes|
      && r.value.bytes[o] == Clamp(red)
      && r.value.bytes[o + 1] == Clamp(green)
      && r.value.bytes[o + 2] == Clamp(blue)
      && forall k :: 0 <= k < |b.bytes| && !(o <= k < o + 3) ==> r.value.bytes[k] == b.bytes[k]
    ensures Shaped(b) && 0 <= i < PixelCount(b) ==>
      && r.Ok? && Shaped(r.value) && PixelCount(r.value) == PixelCount(b)
      && Pixel(r.value, i) == Clamped(red, green, blue)
      && r.value.bytes[..HeaderSize] == b.bytes[..HeaderSize]
      && forall j :: 0 <= j < PixelCount(b) && j != i ==> Pixel(r.value, j) == Pixel(b, j)
  {
    var o := HeaderSize + 3 * i;
    match WriteUInt8(b, o, Clamp(red))
    case Err(e) => Err(e)
    case Ok(b1) =>
      match WriteUInt8(b1, o + 1, Clamp(green))
      case Err(e) => Err(e)
      case Ok(b2) => WriteUInt8(b2, o + 2, Clamp(blue))
  }

  /** `fill(num, r, g, b)`: `set(i, r, g, b)` for i = 0, 1, ..., num - 1 in
      turn; the first set past the end throws. */
  function Fill(b: PixelBuffer, num: int, red: int, green: int, blue: int): (r: Result<PixelBuffer, BufferError>)
    requires Shaped(b)
    ensures r.Ok? <==> num <= PixelCount(b)
    ensures r.Err? ==> r.error == IndexOutOfRange
    ensures r.Ok? ==>
      && Shaped(r.value) && PixelCount(r.value) == PixelCount(b)
      && r.value.bytes[..HeaderSize] == b.bytes[..HeaderSize]
      && (forall i :: 0 <= i < num ==> Pixel(r.value, i) == Clamped(red, green, blue))
      && (forall i :: 0 <= i < PixelCount(b) && num <= i ==> Pixel(r.value, i) == Pixel(b, i))
    decreases num
  {
    if num <= 0 then Ok(b)
    else
      match Fill(b, num - 1, red, green, blue)
      case Err(e) => Err(e)
      case Ok(b1) => Set(b1, num - 1, red, green, blue)
  }

  /** Two shaped buffers with the same header and the same pixels are equal. */
  lemma {:induction false} SamePixelsSameBuffer(a: PixelBuffer, b: PixelBuffer)
    requires Shaped(a) && Shaped(b) && PixelCount(a) == PixelCount(b)
    requires a.bytes[..HeaderSize] == b.bytes[..HeaderSize]
    requires forall i :: 0 <= i < PixelCount(a) ==> Pixel(a, i) == Pixel(b, i)
    ensures a == b
  {
    forall k | 0 <= k < |a.bytes|
      ensures a.bytes[k] == b.bytes[k]
    {
      if k < HeaderSize {
        assert a.bytes[k] == a.bytes[..HeaderSize][k];
      } else {
        var i := (k - HeaderSize) / 3;
        assert Pixel(a, i) == Pixel(b, i);
      }
    }
  }

  /** The header of a frame for `numPixels` pixels. */
  function Header(numPixels: int): seq<Byte>
    requires 0 <= numPixels <= MaxPixels
  {
    [0, 0] + Uint16BE(3 * numPixels)
  }

  /** `n` copies of one pixel triple. */
  function Repeat(p: (Byte, Byte, Byte), n: nat): (r: seq<Byte>)
    ensures |r| == 3 * n
  {
    if n == 0 then [] else Repeat(p, n - 1) + [p.0, p.1, p.2]
  }

  lemma {:induction false} RepeatAt(p: (Byte, Byte, Byte), n: nat, i: nat)
    requires i < n
    ensures Repeat(p, n)[3 * i] == p.0 && Repeat(p, n)[3 * i + 1] == p.1 && Repeat(p, n)[3 * i + 2] == p.2
  {
    if i < n - 1 {
      RepeatAt(p, n - 1, i);
    }
  }

  /** The solid-colour frame, written out independently of the buffer
      operations: header, then the clamped triple `numPixels` times. */
  function SolidFrame(numPixels: int, red: int, green: int, blue: int): seq<Byte>
    requires 0 <= numPixels <= MaxPixels
  {
    Header(numPixels) + Repeat(Clamped(red, green, blue), numPixels)
  }

  /** What `fillColor` builds, `createPixels().fill(numPixels, r, g, b)`, is
      exactly the solid-colour frame. */
  lemma FillNewIsSolidFrame(numPixels: int, red: int, green: int, blue: int)
    requires 0 <= numPixels <= MaxPixels
    ensures New(numPixels).Ok?
    ensures Fill(New(numPixels).value, numPixels, red, green, blue).Ok?
    ensures Fill(New(numPixels).value, numPixels, red, green, blue).value.bytes
            == SolidFrame(numPixels, red, green, blue)
  {
    var b := New(numPixels).value;
    var f := Fill(b, numPixels, red, green, blue).value;
    var s := PixelBuffer(SolidFrame(numPixels, red, green, blue));
    SolidFramePixels(numPixels, Clamped(red, green, blue));
    assert s.bytes[..HeaderSize] == Header(numPixels) == b.bytes[..HeaderSize];
    SamePixelsSameBuffer(f, s);
  }

  /** Every pixel of the header-plus-repeat frame is the repeated triple. */
  lemma {:induction false} SolidFramePixels(numPixels: int, p: (Byte, Byte, Byte))
    requires 0 <= numPixels <= MaxPixels
    ensures var s := PixelBuffer(Header(numPixels) + Repeat(p, numPixels));
            && Shaped(s) && PixelCount(s) == numPixels
            && forall i :: 0 <= i < numPixels ==> Pixel(s, i) == p
  {
    var s := PixelBuffer(Header(numPixels) + Repeat(p, numPixels));
    assert |s.bytes| == HeaderSize + 3 * numPixels;
    forall i | 0 <= i < numPixels
      ensures Pixel(s, i) == p
    {
      RepeatAt(p, numPixels, i);
    }
  }

  /** Filling twice with the same colour is filling once. */
  lemma FillIdempotent(b: PixelBuffer, num: int, red: int, green: int, blue: int)
    requires Shaped(b) && num <= PixelCount(b)
    ensures Fill(b, num, red, green, blue).Ok?
    ensures Fill(Fill(b, num, red, green, blue).value, num, red, green, blue)
            == Fill(b, num, red, green, blue)
  {
    var f1 := Fill(b, num, red, green, blue).value;
    var f2 := Fill(f1, num, red, green, blue).value;
    forall i | 0 <= i < PixelCount(f1)
      ensures Pixel(f2, i) == Pixel(f1, i)
    {
    }
    SamePixelsSameBuffer(f2, f1);
  }

  /** `set(-1, r, g, b)` passes every bounds check and writes the clamped
      channels over bytes 1 to 3, the command byte and the length field. */
  lemma SetBeforeFirstPixelOverwritesHeader(b: PixelBuffer, red: int, green: int, blue: int)
    requires WellFormed(b)
    ensures Set(b, -1, red, green, blue).Ok?
    ensures var h := Set(b, -1, red, green, blue).value.bytes;
            h[0] == 0 && h[1] == Clamp(red) && h[2] == Clamp(green) && h[3] == Clamp(blue)
    ensures Clamp(red) != 0 ==> !WellFormed(Set(b, -1, red, green, blue).value)
  {
  }

  /** Four pixels filled with (10, 20, 30): the header declares 12 payload
      bytes and the payload is 0x0A 0x14 0x1E four times. */
  lemma FourPixelFrame()
    ensures Fill(New(4).value, 4, 10, 20, 30).Ok?
    ensures Fill(New(4).value, 4, 10, 20, 30).value.bytes
            == [0, 0, 0, 12, 10, 20, 30, 10, 20, 30, 10, 20, 30, 10, 20, 30]
  {
    FillNewIsSolidFrame(4, 10, 20, 30);
    FourPixelSolidFrame();
  }

  /** The reference frame for four pixels of (10, 20, 30), byte by byte. */
  lemma FourPixelSolidFrame()
    ensures SolidFrame(4, 10, 20, 30) == [0, 0, 0, 12, 10, 20, 30, 10, 20, 30, 10, 20, 30, 10, 20, 30]
  {
    var p: (Byte, Byte, Byte) := (10, 20, 30);
    assert Clamped(10, 20, 30) == p;
    assert Header(4) == [0, 0, 0, 12] by {
      assert Uint16BE(12) == [0, 12];
    }
    assert Repeat(p, 4) == [10, 20, 30, 10, 20, 30, 10, 20, 30, 10, 20, 30] by {
      assert Repeat(p, 1) == [10, 20, 30];
      assert Repeat(p, 2) == [10, 20, 30, 10, 20, 30];
      assert Repeat(p, 3) == [10, 20, 30, 10, 20, 30, 10, 20, 30];
    }
  }

  /** Out-of-range channels are clamped: (-10, 300, 128) is stored as
      (0, 255, 128). */
  lemma ClampExample()
    ensures Clamped(-10, 300, 128) == (0, 255, 128)
  {
    assert ToInt32(-10) == -10 && ToInt32(300) == 300;
  }
}
